=== FILE: README.md ===
# chess-rs `BoardConfig`: apply and undo, modelled in Dafny

This project models the reversible move machine of the chess-rs board,
`BoardConfig` in `src/data/mod.rs`. A position consists of:

- twelve piece-sets, one per coloured piece kind;
- the side to move;
- an optional en-passant target;
- a one-byte castle-rights flag set;
- the half-move clock and the full-move number;
- a last-in-first-out log of `MoveCommit` records.

`apply_move` dispatches on the five move kinds and then does the bookkeeping. It:

- clears the en-passant target unless the move is a double push;
- revokes castling rights;
- steps the counters;
- hands the move to the other side;
- logs the captured piece, the previous en-passant target and the XOR delta of the flags.

`undo` pops the last record and reverses the move.

Everything is pure: a position is an immutable `BoardConfig`, and `ApplyMove` and `Undo` are functions from positions to positions.

Modules, one per file:

- `Wrappers` (`wrappers.dfy`): `Option`.
- `Pieces` (`pieces.dfy`):
  - colours and piece kinds;
  - the position of a coloured piece in the twelve-entry piece-set array.
- `Squares` (`squares.dfy`):
  - squares 0..63, with a1 = 0, h1 = 7 and a8 = 56;
  - the named squares used by castling;
  - the square behind a pawn's destination, `Square::try_from(to ∓ 8)`.
- `Castling` (`castling.dfy`):
  - the `CastleFlags` byte, with its `can_*`, `set_*` and `unset_*` operations for each of the four rights;
  - the rights update `apply_move` performs after every move.
- `Moves` (`moves.dfy`):
  - `Move`, `MoveType`, `MoveCommit`;
  - the king and rook routes of the four castling moves.
- `Bitboards` (`bitboards.dfy`):
  - the piece-sets as `seq<set<Square>>`;
  - `get_at_sq` (first piece-set in enumeration order that holds the square);
  - the occupancy unions;
  - `add_piece`, `remove_piece`, `move_piece`.
  - Properties of these are stated through the view `PieceAt` under *single occupancy*: no square is held by two piece-sets.
- `BoardConfigs` (`board_config.dfy`): the position, every `apply_*` and `undo_*` helper, `apply_move` and `undo`.
- `RoundTrip` (`round_trip.dfy`): `undo(apply_move(s, m)) == s` in every field.
- `Findings` (`findings.dfy`): `apply_promotion` as written and what goes wrong with it.

Panics become preconditions. `CanApply` and `CanUndo` name exactly the `unwrap`s and `panic!`s of the source:

- the origin square is empty;
- `Square::try_from` goes out of range;
- a `Promotion(None)` move;
- `move_piece` on an empty square;
- the destination of the last logged move is empty in `undo`;
- either counter underflows in `undo`.

`undo` decides whether to step the full-move number back from the colour of the piece on the move's destination *before* the move is reversed, and the model does the same. For moves meeting `RoundTripShape`, `RoundTrip.BoardRoundTrip` shows that this piece has the mover's colour.

## Model

| member | source | states |
|---|---|---|
| Pieces.Index | src/data/mod.rs:361-383 | each coloured piece has a piece-set position below 12, and the first six positions are exactly the White pieces |
| Pieces.IndexInjective | src/data/mod.rs:301-308 | distinct pieces have distinct piece-set positions, so the piece read back from a position is the piece stored there |
| Pieces.OpponentInvolutive | src/data/mod.rs:404-409 | handing the move over twice gives the original colour |
| Squares.Behind | src/data/mod.rs:116-120 | the square behind a pawn's destination exists exactly when `to - 8` (White) or `to + 8` (Black) is on the board, and is eight squares back from the mover's point of view |
| Bitboards.FindFrom | src/data/mod.rs:302-307 | the search from position `i` returns the piece of the first set at or after `i` that holds the square, or nothing when none does |
| Bitboards.PieceAt | src/data/mod.rs:301-308 | `get_at_sq` answers with a piece whose set holds the square and no earlier set holds it; it answers None only when no set holds it |
| Bitboards.PieceAtSingle | src/data/mod.rs:301-308 | without double claims, `get_at_sq` reports piece `p` exactly when `p`'s set holds the square |
| Bitboards.EmptyIffUnoccupied | src/data/mod.rs:301-359 | `get_at_sq` reports an empty square exactly when the square is not in `all_occupancy` |
| Bitboards.AllOccupancy | src/data/mod.rs:353-359 | `all_occupancy` holds exactly the squares some piece-set holds |
| Bitboards.ColorOccupancy | src/data/mod.rs:361-383 | `white_occupancy` / `black_occupancy` hold exactly the squares held by a set of a piece of that colour |
| Bitboards.OccupancyByColor | src/data/mod.rs:353-383 | all occupancy is White plus Black occupancy; without double claims the two are disjoint and a square is White-occupied exactly when a White piece stands there |
| Bitboards.AddPiece | src/data/mod.rs:400-402 | `add_piece` puts the square into `p`'s set and touches no other set or square |
| Bitboards.AddPieceView | src/data/mod.rs:419-421 | on an empty square, adding `p` shows `p` there, keeps single occupancy and changes no other square |
| Bitboards.RemovePiece | src/data/mod.rs:391-398 | `remove_piece` reports what `get_at_sq` saw; when that is a piece, only that piece's set loses the square; otherwise nothing changes |
| Bitboards.RemovePieceView | src/data/mod.rs:415-417 | without double claims, removing empties the square, keeps single occupancy and changes no other square |
| Bitboards.AddRemoveInverse | src/data/mod.rs:391-402 | removing a piece just added to an empty square gives back the board and reports that piece |
| Bitboards.RemoveAddInverse | src/data/mod.rs:391-402 | adding back the piece just removed gives back the board |
| Bitboards.MovePiece | src/data/mod.rs:385-389 | `move_piece` takes `from` out of the set of the piece `get_at_sq` reads there and puts `to` into that set; the other eleven sets are unchanged, whatever stands on `to` |
| Bitboards.MovePieceView | src/data/mod.rs:385-389 | moving onto an empty square shows the piece on `to`, empties `from`, changes nothing else and keeps single occupancy |
| Bitboards.MovePieceInverse | src/data/mod.rs:385-389 | moving onto an empty square and back gives back the board |
| Castling.RightFor | src/data/mod.rs:160-169 | the right to castle to a side belongs to the castling colour |
| Castling.Set | src/data/mod.rs:432-470 | after `set_*` its `can_*` holds, every other right is as before, and the unused high bits are untouched |
| Castling.Unset | src/data/mod.rs:436-473 | after `unset_*` its `can_*` fails, every other right is as before, and the unused high bits are untouched |
| Castling.RightsOfSetUnset | src/data/mod.rs:427-475 | `set_*` adds exactly its right, `unset_*` removes exactly its right |
| Castling.SetUnsetInverse | src/data/mod.rs:427-475 | `set_*` after `unset_*` restores a byte that granted the right; `unset_*` after `set_*` restores one that withheld it |
| Castling.FlagsDeterminedByRights | src/data/mod.rs:425-475 | two flag bytes that grant the same rights and agree on the unused bits are equal |
| Castling.RevokeRightsSpec | src/data/mod.rs:71-89 | the rights update removes exactly the rights `RevokedBy` names and grants none: a rook leaving a corner loses one right, a king loses both of its colour, and where a piece lands plays no part. The unused bits stay as they were |
| Castling.RevokeColorRights | src/data/mod.rs:160-169 | castling removes exactly both rights of the castling colour and nothing else |
| Castling.CastlingRevokesColor | src/data/mod.rs:160-169 | castling loses both rights of the mover's colour on top of whatever the moving piece itself loses |
| Castling.RevokeAfterCastling | src/data/mod.rs:71-89 | rights revoked by castling and then by the moving piece add up to `RevokedBy` of the whole move |
| Castling.XorDeltaRestores | src/data/mod.rs:94-103 | XORing the logged delta into the new flags gives the old flags |
| Castling.XorDeltaDetermines | src/data/mod.rs:213 | the flags `undo` computes from the logged delta are the flags the delta was taken from |
| Moves.Route | src/data/mod.rs:135-158 | the king starts on e1 or e8 and travels two files toward the side; the rook starts on that right's corner and lands on the square the king crosses; the four squares are distinct |
| BoardConfigs.ToggleActiveColor | src/data/mod.rs:404-409 | `toggle_active_color` changes the side to move and nothing else |
| BoardConfigs.ToggleInvolutive | src/data/mod.rs:404-409 | toggling twice gives back the position |
| BoardConfigs.ApplyNormal | src/data/mod.rs:106-110 | `apply_normal` captures what stood on `to` and changes only the piece-sets |
| BoardConfigs.ApplyNormalView | src/data/mod.rs:106-110 | without double claims the mover ends on `to`, `from` is emptied, every other square is unchanged, and single occupancy is kept |
| BoardConfigs.ApplyDoublePush | src/data/mod.rs:112-122 | `apply_double_push` captures nothing and sets the en-passant target to `to - 8` (White) or `to + 8` (Black) |
| BoardConfigs.ApplyDoublePushView | src/data/mod.rs:112-122 | the pawn ends on `to`, `from` is emptied, and single occupancy is kept |
| BoardConfigs.ApplyEnPassant | src/data/mod.rs:124-133 | `apply_en_passant` captures what stands behind `to` once the pawn has moved, and changes only the piece-sets |
| BoardConfigs.ApplyEnPassantView | src/data/mod.rs:124-133 | onto an empty `to`, the pawn lands there and the square behind is emptied; the captured piece is the one that stood behind, and single occupancy is kept |
| BoardConfigs.ApplyCastle | src/data/mod.rs:135-170 | `apply_castle` captures nothing and removes exactly both rights of the mover's colour |
| BoardConfigs.ApplyCastleView | src/data/mod.rs:135-158 | with a rook in the corner and empty landing squares, king and rook stand on their landing squares, their home squares are empty, and single occupancy is kept |
| BoardConfigs.CastleRouteView | src/data/mod.rs:135-158 | two `move_piece` calls along a route of four distinct squares are defined, keep single occupancy, and show the route's effect |
| BoardConfigs.ApplyPromotion | src/data/mod.rs:174-184 | the promotion helper as corrected under Findings: it captures what stood on `to` and takes that piece off its own set, and the promotion piece's set holds `to` |
| BoardConfigs.ApplyPromotionView | src/data/mod.rs:174-184 | the promotion piece alone stands on `to`, `from` is empty, the captured piece is what stood on `to`, and single occupancy is kept |
| BoardConfigs.Dispatch | src/data/mod.rs:50-64 | the move-kind helpers leave the side to move, counters and log alone; a double push sets the en-passant target to the square behind `to` and every other kind leaves it as it was; only castling touches the flags |
| BoardConfigs.ApplyMove | src/data/mod.rs:37-104 | a wrong-turn move changes nothing. Otherwise: colour toggles, half-move clock +1, full-move number +1 iff the mover is Black, exactly one commit appended carrying the move, prior en-passant target and flag delta, and the en-passant target is set only after a double push |
| BoardConfigs.ApplyMoveCastleRights | src/data/mod.rs:71-89 | an accepted move never grants a right. It removes exactly the rights of the castling colour, of a moving king, or of a rook leaving its own corner, and nothing else |
| BoardConfigs.UndoNormalView | src/data/mod.rs:220-225 | `undo_normal` moves the piece back to `from` and puts the captured piece, if any, back on `to` |
| BoardConfigs.UndoDoublePushView | src/data/mod.rs:227-229 | `undo_double_push` moves the pawn back to `from` |
| BoardConfigs.UndoEnPassantView | src/data/mod.rs:267-283 | `undo_en_passant` moves the pawn back and puts the captured pawn back on the square behind `to` |
| BoardConfigs.UndoCastleView | src/data/mod.rs:231-254 | `undo_castle` moves king and rook back along the route to their home squares |
| BoardConfigs.UndoPromotionView | src/data/mod.rs:256-265 | `undo_promotion` puts a pawn of the promoted piece's colour back on `from` and the captured piece, if any, on `to` |
| BoardConfigs.Undo | src/data/mod.rs:186-217 | an empty log changes nothing. Otherwise: one commit popped, en-passant target taken from it, flags XORed with its delta, half-move clock −1, full-move number −1 iff the piece on the destination is Black, colour toggled back |
| RoundTrip.NormalRoundTrip | src/data/mod.rs:220-225 | `undo_normal` reverses `apply_normal` on any board without double claims, and the mover ends up on `to` |
| RoundTrip.DoublePushRoundTrip | src/data/mod.rs:227-229 | `undo_double_push` reverses `apply_double_push` onto an empty square |
| RoundTrip.EnPassantRoundTrip | src/data/mod.rs:267-283 | `undo_en_passant` reverses `apply_en_passant` onto an empty square, whether or not a pawn stood behind it |
| RoundTrip.CastleRouteRoundTrip | src/data/mod.rs:135-158 | moving king and rook back along a route gives back the board they left |
| RoundTrip.CastleRoundTrip | src/data/mod.rs:231-254 | `undo_castle` is defined after `apply_castle` and reverses it, with the king at home, a rook in the corner and empty landing squares |
| RoundTrip.PromotionRoundTrip | src/data/mod.rs:256-265 | `undo_promotion` reverses the corrected promotion, capturing or not, onto another square or its own, and the promotion piece stands on `to` in between |
| RoundTrip.InPlacePromotionRoundTrip | src/data/mod.rs:174-184 | a promotion whose destination is its origin captures nothing, leaves the promotion piece alone on the square, and `undo_promotion` puts the pawn back |
| RoundTrip.BoardRoundTrip | src/data/mod.rs:194-207 | for the helper `apply_move` dispatches to, the piece on `to` afterwards has the mover's colour, and the helper `undo` dispatches to is defined and gives back the piece-sets |
| RoundTrip.BookkeepingRoundTrip | src/data/mod.rs:186-217 | once the board comes back, `undo` restores side to move, en-passant target, exact flags, both counters and the log |
| RoundTrip.ApplyUndoRoundTrip | src/data/mod.rs:37-104 | `undo(apply_move(s, m)) == s` in every field for every move kind under `RoundTripShape`, with the promotion helper as corrected under Findings; the move keeps single occupancy and `undo` does not panic |
| Findings.ApplyPromotionAsWritten | src/data/mod.rs:174-184 | the source's helper reports the piece on `to` as captured, yet that piece keeps `to` in its set |
| Findings.ApplyMoveAsWritten | src/data/mod.rs:37-104 | `apply_move` with the as-written promotion helper agrees with the model on every other move kind, on wrong-turn moves, and on promotions onto a square left empty once the pawn is lifted |
| Findings.AsWrittenAgreesOnEmptyTarget | src/data/mod.rs:174-184 | a promotion onto a square that is empty once the pawn is lifted gives the same position under the source's helper and the corrected one |
| Findings.AsWrittenRoundTrip | src/data/mod.rs:37-104 | for the source's `apply_move`, `undo(apply_move(s, m)) == s` holds under `RoundTripShape` on every move except a promotion onto a square still occupied once the pawn is lifted |
| Findings.CounterMoveAsWritten | src/data/mod.rs:174-184 | on the concrete position, the as-written move is accepted and `get_at_sq` then reports the captured White rook on a1, not the new Black queen |
| Findings.PromotionCaptureDoubleClaims | src/data/mod.rs:174-184 | a promotion onto any other piece leaves two sets claiming `to` |
| Findings.PromotionCaptureUndoFails | src/data/mod.rs:186-265 | on a concrete position meeting every round-trip condition, `undo` after the as-written promotion gives a different position: full-move number off by one, White pawn on a2 |
| Findings.PromotionCaptureUndoRestored | src/data/mod.rs:174-184 | with the corrected helper, the same position and move come back exactly |
| Findings.MirrorMoveAsWritten | src/data/mod.rs:174-184 | White pawn on b7 takes a Black rook on a8 and promotes to a queen: the as-written move is accepted and leaves queen and rook both claiming a8 |
| Findings.MirrorUndo | src/data/mod.rs:186-265 | on that position `get_at_sq(a8)` reports the queen, and `undo` puts the pawn back on b7 and the rook back on a8 |
| Findings.MirrorCaptureUndoRestored | src/data/mod.rs:174-265 | on the b7xa8=Q position the as-written move comes back exactly although two sets claim a8, because the promotion piece precedes the captured piece in the enumeration |

## Left out

- Board notation: `Default`, `reset`, `from_fen_str`, `load_fen` and `get_fen` (src/data/mod.rs:30-34, 285-299). They read and write board notation through `fen.rs`, which is not part of this model. No starting position is modelled.
- Move inference: `Move`, `MoveType`, `CastleType` and `MoveCommit` are plain datatypes supplied by the caller. Their construction and classification live in `moves.rs`, which is not part of this model.
- The fuzz target `chrs-lib/fuzz/fuzz_targets/chrs-lib-fuzz.rs`: it only drives move inference.
- `BitBoard` internals (`bitboard.rs` is not part of this model): each bitboard is a set of squares 0..63. `is_set`, `set`, `unset` and `|` become set membership, insertion, removal and union.
- `update_bitboard` (src/data/mod.rs:411-413): it is never called.
- `get_bit_board` (src/data/mod.rs:342-347): it parses a character through the `strum` derive.
- The plain getters (src/data/mod.rs:310-340, 349-351): they only return fields.
- Logging calls: `log::info!` and `log::error!`.
- The panics themselves: the model turns each panic into a precondition.
- Square numbering: `square.rs` is not part of this model. Squares are numbered a1 = 0, b1 = 1, …, h1 = 7, a2 = 8, …, h8 = 63, which is the numbering under which `to - 8` is the square behind a White pawn's destination. The castling squares of `Moves.Route` and the squares of the counterexamples depend on it.
- Piece enumeration order: `piece.rs` is not part of this model. The order WhiteRook, WhiteBishop, WhiteKnight, WhiteKing, WhiteQueen, WhitePawn, then the same for Black, follows the listing in `white_occupancy` and `black_occupancy`. It only decides which piece `get_at_sq` reports on a square held by two sets.
- BoardConfigs.ApplyMove: the `u32` counters are unbounded naturals, so a wrap-around at 2^32 is not modelled.
- BoardConfigs.Undo: likewise, the counters are naturals. `CanUndo` requires them to be positive where the source would underflow.
- RoundTrip.ApplyUndoRoundTrip: its promotion branch is the corrected helper `BoardConfigs.ApplyPromotion`, not the source's. For the source's `apply_move` the round trip is proved only for promotions onto an empty square (`Findings.AsWrittenRoundTrip`); a capturing promotion always leaves two sets claiming `to`. `undo` then fails when the captured piece precedes the promotion piece in the enumeration: under the assumed order, every Black promotion onto a White piece, as under Findings. `Findings.MirrorCaptureUndoRestored` shows a White capturing promotion that still comes back.
- RoundTrip.ApplyUndoRoundTrip: `RoundTripShape` also asks what the source does not check: a promoting piece is a pawn, the promotion piece has the mover's colour, and a castle names the king's landing square as `m.to`. Without these, `undo` rebuilds a different piece or reads the wrong square.
- RoundTrip.ApplyUndoRoundTrip: proved only for positions without double claims and moves meeting `RoundTripShape`. The source loses information outside that shape:
  - `apply_double_push` drops a piece it removes from `to` without reporting it;
  - `apply_en_passant` onto an occupied `to` leaves a double claim;
  - castling moves whatever stands on the route.
- Castling.RevokeRights carries no contract of its own. `Castling.RevokeRightsSpec` and `BoardConfigs.ApplyMoveCastleRights` state what it does.
- BoardConfigs.UndoNormal, BoardConfigs.UndoDoublePush, BoardConfigs.UndoEnPassant, BoardConfigs.UndoCastle, BoardConfigs.UndoPromotion and BoardConfigs.UndoDispatch carry no contract of their own. Their meaning is stated by the `...View` lemmas and by the round-trip lemmas.

## Findings

| source | as written | input that shows it | evidently intended | confidence | as-written member | corrected member |
|---|---|---|---|---|---|---|
| src/data/mod.rs:174-184 | `apply_promotion` reports the piece on `to` as captured but never removes it from its own piece-set. Two sets then hold `to`. | Black to move; Black pawn on a2, White rook on a1; a2a1=Q. After the move, `get_at_sq(a1)` reports the rook. `undo` treats it as the mover: it does not step the full-move number back and puts a White pawn on a2. | Remove the captured piece from its set, as `apply_normal` does with `remove_piece(to)`. | not executed; high, because the proof follows the code line by line and the piece order only decides which of the two claims is reported | Findings.PromotionCaptureUndoFails | BoardConfigs.ApplyPromotion |

=== FILE: bitboards.dfy ===
/**
  The twelve piece-sets of a position (`BoardMap`, one bit-board per piece
  kind) and the square-level helpers of `BoardConfig` that read and edit
  them: `get_at_sq`, `add_piece`, `remove_piece`, `move_piece` and the
  occupancy unions. A bit-board is modelled as the set of squares it holds.
 */
module Bitboards {
  import opened Wrappers
  import opened Pieces
  import opened Squares

  /** One set of squares per piece kind, indexed by `Index`. */
  type BoardMap = b: seq<set<Square>> | |b| == PieceCount
    witness [{}, {}, {}, {}, {}, {}, {}, {}, {}, {}, {}, {}]

  /** The board invariant: no square is claimed by two piece-sets. */
  predicate SingleOccupancy(b: BoardMap) {
    forall x: Square, i, j :: 0 <= i < PieceCount && 0 <= j < PieceCount && x in b[i] && x in b[j] ==> i == j
  }

  /** The first piece kind, from position `i` of the enumeration on, whose set holds `sq`. */
  function FindFrom(b: BoardMap, sq: Square, i: nat): (r: Option<Piece>)
    requires i <= PieceCount
    ensures r.Some? ==> i <= Index(r.value) && sq in b[Index(r.value)]
    ensures r.Some? ==> forall j :: i <= j < Index(r.value) ==> sq !in b[j]
    ensures r.None? ==> forall j :: i <= j < PieceCount ==> sq !in b[j]
    decreases PieceCount - i
  {
    if i == PieceCount then None
    else if sq in b[i] then Some(PieceOf(i))
    else FindFrom(b, sq, i + 1)
  }

  /**
    `get_at_sq`: the piece on a square, or None on an empty square. When two
    sets claim the square, the kind that comes first in the enumeration wins.
   */
  function PieceAt(b: BoardMap, sq: Square): (r: Option<Piece>)
    ensures r.Some? ==> sq in b[Index(r.value)]
    ensures r.Some? ==> forall j :: 0 <= j < Index(r.value) ==> sq !in b[j]
    ensures r.None? ==> forall j :: 0 <= j < PieceCount ==> sq !in b[j]
  {
    FindFrom(b, sq, 0)
  }

  /** A square is empty exactly when no piece-set holds it. */
  lemma EmptyIffUnoccupied(b: BoardMap, sq: Square)
    ensures PieceAt(b, sq).None? <==> sq !in AllOccupancy(b)
  {
  }

  /** The union of the piece-sets from position `i` on. */
  function UnionFrom(b: BoardMap, i: nat): (r: set<Square>)
    requires i <= PieceCount
    ensures forall x :: x in r <==> exists j :: i <= j < PieceCount && x in b[j]
    decreases PieceCount - i
  {
    if i == PieceCount then {} else b[i] + UnionFrom(b, i + 1)
  }

  /** `all_occupancy`: every square that some piece-set holds. */
  function AllOccupancy(b: BoardMap): (r: set<Square>)
    ensures forall x :: x in r <==> exists j :: 0 <= j < PieceCount && x in b[j]
  {
    UnionFrom(b, 0)
  }

  /** The union of the six piece-sets of one colour. */
  function ColorOccupancy(b: BoardMap, c: Color): (r: set<Square>)
    ensures forall x :: x in r <==> exists k :: x in b[Index(Piece(c, k))]
  {
    ColorUnionCovers(b, c);
    b[Index(Piece(c, Rook))] + b[Index(Piece(c, Bishop))] + b[Index(Piece(c, Knight))]
      + b[Index(Piece(c, King))] + b[Index(Piece(c, Queen))] + b[Index(Piece(c, Pawn))]
  }

  lemma ColorUnionCovers(b: BoardMap, c: Color)
    ensures forall x, k :: x in b[Index(Piece(c, k))] ==>
      x in b[Index(Piece(c, Rook))] + b[Index(Piece(c, Bishop))] + b[Index(Piece(c, Knight))]
        + b[Index(Piece(c, King))] + b[Index(Piece(c, Queen))] + b[Index(Piece(c, Pawn))]
  {
    forall x, k | x in b[Index(Piece(c, k))]
      ensures x in b[Index(Piece(c, Rook))] + b[Index(Piece(c, Bishop))] + b[Index(Piece(c, Knight))]
        + b[Index(Piece(c, King))] + b[Index(Piece(c, Queen))] + b[Index(Piece(c, Pawn))]
    {
      match k
      case Rook =>
      case Bishop =>
      case Knight =>
      case King =>
      case Queen =>
      case Pawn =>
    }
  }

  /** `white_occupancy`. */
  function WhiteOccupancy(b: BoardMap): set<Square> {
    ColorOccupancy(b, White)
  }

  /** `black_occupancy`. */
  function BlackOccupancy(b: BoardMap): set<Square> {
    ColorOccupancy(b, Black)
  }

  /** Under single occupancy the piece on a square is exactly the kind whose set holds it. */
  lemma PieceAtSingle(b: BoardMap, sq: Square)
    requires SingleOccupancy(b)
    ensures forall p :: PieceAt(b, sq) == Some(p) <==> sq in b[Index(p)]
  {
    forall p ensures PieceAt(b, sq) == Some(p) <==> sq in b[Index(p)] {
      var r := PieceAt(b, sq);
      if r.Some? && sq in b[Index(p)] {
        IndexInjective(p, r.value);
      }
    }
  }

  /**
    The two colour unions cover the whole occupancy, and a square is in the
    union of a colour exactly when the piece on it has that colour, provided
    no square is claimed twice.
   */
  lemma OccupancyByColor(b: BoardMap)
    ensures AllOccupancy(b) == WhiteOccupancy(b) + BlackOccupancy(b)
    ensures SingleOccupancy(b) ==> WhiteOccupancy(b) !! BlackOccupancy(b)
    ensures SingleOccupancy(b) ==> forall x :: x in WhiteOccupancy(b) <==> PieceAt(b, x).Some? && PieceAt(b, x).value.color == White
  {
    forall x | x in AllOccupancy(b) ensures x in WhiteOccupancy(b) + BlackOccupancy(b) {
      var j :| 0 <= j < PieceCount && x in b[j];
      var p := PieceOf(j);
      assert x in b[Index(Piece(p.color, p.kind))];
    }
    forall x | x in WhiteOccupancy(b) + BlackOccupancy(b) ensures x in AllOccupancy(b) {
      var k, c :| x in b[Index(Piece(c, k))];
    }
    if SingleOccupancy(b) {
      forall x ensures x in WhiteOccupancy(b) <==> PieceAt(b, x).Some? && PieceAt(b, x).value.color == White {
        PieceAtSingle(b, x);
        if x in WhiteOccupancy(b) {
          var k :| x in b[Index(Piece(White, k))];
        }
        if PieceAt(b, x).Some? {
          var p := PieceAt(b, x).value;
          assert x in b[Index(Piece(p.color, p.kind))];
        }
      }
      forall x | x in BlackOccupancy(b) ensures x !in WhiteOccupancy(b) {
        PieceAtSingle(b, x);
        var k :| x in b[Index(Piece(Black, k))];
      }
    }
  }

  /** Two boards without double claims that show the same piece on every square are equal. */
  lemma BoardExtensionality(a: BoardMap, b: BoardMap)
    requires SingleOccupancy(a) && SingleOccupancy(b)
    requires forall x :: PieceAt(a, x) == PieceAt(b, x)
    ensures a == b
  {
    forall i | 0 <= i < PieceCount ensures a[i] == b[i] {
      forall x: Square ensures x in a[i] <==> x in b[i] {
        PieceAtSingle(a, x);
        PieceAtSingle(b, x);
        assert x in a[Index(PieceOf(i))] <==> x in b[Index(PieceOf(i))];
      }
    }
  }

  /** `add_piece`: sets the bit of `sq` in the set of `p`, leaving every other set alone. */
  function AddPiece(b: BoardMap, p: Piece, sq: Square): (r: BoardMap)
    ensures sq in r[Index(p)]
    ensures forall i :: 0 <= i < PieceCount && i != Index(p) ==> r[i] == b[i]
    ensures forall x :: x != sq ==> (x in r[Index(p)] <==> x in b[Index(p)])
  {
    b[Index(p) := b[Index(p)] + {sq}]
  }

  /** On an empty square of a board without double claims, adding puts exactly `p` there. */
  lemma AddPieceView(b: BoardMap, p: Piece, sq: Square)
    requires SingleOccupancy(b) && PieceAt(b, sq).None?
    ensures SingleOccupancy(AddPiece(b, p, sq))
    ensures forall x :: PieceAt(AddPiece(b, p, sq), x) == if x == sq then Some(p) else PieceAt(b, x)
  {
    var r := AddPiece(b, p, sq);
    assert SingleOccupancy(r);
    forall x ensures PieceAt(r, x) == if x == sq then Some(p) else PieceAt(b, x) {
      PieceAtSingle(r, x);
      PieceAtSingle(b, x);
    }
  }

  datatype Removal = Removal(board: BoardMap, removed: Option<Piece>)

  /**
    `remove_piece`: clears `sq` in the set of the piece `get_at_sq` finds
    there and returns that piece; an empty square is left as it is.
   */
  function RemovePiece(b: BoardMap, sq: Square): (r: Removal)
    ensures r.removed == PieceAt(b, sq)
    ensures r.removed.None? ==> r.board == b
    ensures r.removed.Some? ==> r.board[Index(r.removed.value)] == b[Index(r.removed.value)] - {sq}
    ensures forall i :: 0 <= i < PieceCount && (r.removed.None? || i != Index(r.removed.value)) ==> r.board[i] == b[i]
  {
    match PieceAt(b, sq)
    case None => Removal(b, None)
    case Some(p) => Removal(b[Index(p) := b[Index(p)] - {sq}], Some(p))
  }

  /** On a board without double claims, removing empties `sq` and changes no other square. */
  lemma RemovePieceView(b: BoardMap, sq: Square)
    requires SingleOccupancy(b)
    ensures SingleOccupancy(RemovePiece(b, sq).board)
    ensures forall x :: PieceAt(RemovePiece(b, sq).board, x) == if x == sq then None else PieceAt(b, x)
  {
    var r := RemovePiece(b, sq).board;
    PieceAtSingle(b, sq);
    assert SingleOccupancy(r);
    forall x ensures PieceAt(r, x) == if x == sq then None else PieceAt(b, x) {
      PieceAtSingle(r, x);
      PieceAtSingle(b, x);
    }
  }

  /** What a board shows on square `x` once the piece on `from` has moved to `to`. */
  function AfterMove(b: BoardMap, from: Square, to: Square, x: Square): Option<Piece> {
    if x == to then PieceAt(b, from) else if x == from then None else PieceAt(b, x)
  }

  /** `move_piece`: takes the piece off `from` and puts the same kind on `to`; panics on an empty `from`. */
  function MovePiece(b: BoardMap, from: Square, to: Square): (r: BoardMap)
    requires PieceAt(b, from).Some?
    ensures to in r[Index(PieceAt(b, from).value)]
    ensures r[Index(PieceAt(b, from).value)] == b[Index(PieceAt(b, from).value)] - {from} + {to}
    ensures forall i :: 0 <= i < PieceCount && i != Index(PieceAt(b, from).value) ==> r[i] == b[i]
  {
    var p := PieceAt(b, from).value;
    AddPiece(RemovePiece(b, from).board, p, to)
  }

  /**
    On a board without double claims, moving onto an empty square puts the
    moved piece on `to`, empties `from` and changes no other square.
   */
  lemma MovePieceView(b: BoardMap, from: Square, to: Square)
    requires SingleOccupancy(b) && PieceAt(b, from).Some? && PieceAt(b, to).None?
    ensures SingleOccupancy(MovePiece(b, from, to))
    ensures forall x :: PieceAt(MovePiece(b, from, to), x) == AfterMove(b, from, to, x)
  {
    var b1 := RemovePiece(b, from).board;
    RemovePieceView(b, from);
    assert PieceAt(b1, to).None?;
    AddPieceView(b1, PieceAt(b, from).value, to);
  }

  /** Adding a piece on an empty square and removing it again gives back the board and reports that piece. */
  lemma AddRemoveInverse(b: BoardMap, p: Piece, sq: Square)
    requires PieceAt(b, sq).None?
    ensures RemovePiece(AddPiece(b, p, sq), sq) == Removal(b, Some(p))
  {
    var a := AddPiece(b, p, sq);
    var q := PieceAt(a, sq);
    assert q.Some?;
    assert sq in a[Index(q.value)];
    IndexInjective(q.value, p);
    assert q == Some(p);
    assert RemovePiece(a, sq).board == b;
  }

  /** On a board without double claims, removing a piece and adding it back gives back the board. */
  lemma RemoveAddInverse(b: BoardMap, sq: Square)
    requires SingleOccupancy(b) && PieceAt(b, sq).Some?
    ensures AddPiece(RemovePiece(b, sq).board, PieceAt(b, sq).value, sq) == b
  {
    var p := PieceAt(b, sq).value;
    var i := Index(p);
    var r := AddPiece(RemovePiece(b, sq).board, p, sq);
    assert b[i] - {sq} + {sq} == b[i];
    assert r == b[i := b[i] - {sq}][i := b[i] - {sq} + {sq}];
  }

  /** On a board without double claims, moving a piece onto an empty square and back gives back the board. */
  lemma MovePieceInverse(b: BoardMap, from: Square, to: Square)
    requires SingleOccupancy(b) && PieceAt(b, from).Some? && PieceAt(b, to).None?
    ensures PieceAt(MovePiece(b, from, to), to) == PieceAt(b, from)
    ensures MovePiece(MovePiece(b, from, to), to, from) == b
  {
    var b1 := MovePiece(b, from, to);
    MovePieceView(b, from, to);
    assert PieceAt(b1, to) == AfterMove(b, from, to, to);
    assert PieceAt(b1, from) == AfterMove(b, from, to, from);
    MovePieceView(b1, to, from);
    var b2 := MovePiece(b1, to, from);
    forall x ensures PieceAt(b2, x) == PieceAt(b, x) {
      assert PieceAt(b2, x) == AfterMove(b1, to, from, x);
      assert PieceAt(b1, x) == AfterMove(b, from, to, x);
    }
    BoardExtensionality(b2, b);
  }
}

=== FILE: board_config.dfy ===
/**
  The position (`BoardConfig`) and its reversible transition function:
  `apply_move` with one helper per move kind, and `undo` with the inverse
  helpers. Each unwrap of the source is a precondition here (`CanApply`,
  `CanUndo`); the silent return for a piece of the wrong colour is modelled
  as returning the position unchanged.
 */
module BoardConfigs {
  import opened Wrappers
  import opened Pieces
  import opened Squares
  import opened Castling
  import opened Moves
  import opened Bitboards

  datatype BoardConfig = BoardConfig(
    activeColor: Color,
    enPassantTarget: Option<Square>,
    castleFlags: CastleFlags,
    halfmoveClock: nat,
    fullmoveNumber: nat,
    bitboards: BoardMap,
    moveHistory: seq<MoveCommit>)

  /** A position after the kind-specific part of a move, with the piece the move captured. */
  datatype Applied = Applied(config: BoardConfig, captured: Option<Piece>)

  /** `toggle_active_color`: hands the move to the other side and changes nothing else. */
  function ToggleActiveColor(c: BoardConfig): (r: BoardConfig)
    ensures r.activeColor != c.activeColor
    ensures r == c.(activeColor := r.activeColor)
  {
    c.(activeColor := Opponent(c.activeColor))
  }

  /** Handing the move over twice gives back the position. */
  lemma ToggleInvolutive(c: BoardConfig)
    ensures ToggleActiveColor(ToggleActiveColor(c)) == c
  {
    OpponentInvolutive(c.activeColor);
  }

  // ---------------------------------------------------------------------------
  // apply_move

  /**
    `apply_normal`: captures whatever stands on `to` and moves the piece on
    `from` there. Panics when `from` is empty once `to` has been cleared.
   */
  function ApplyNormal(c: BoardConfig, from: Square, to: Square): (r: Applied)
    requires PieceAt(RemovePiece(c.bitboards, to).board, from).Some?
    ensures r.config == c.(bitboards := r.config.bitboards)
    ensures r.captured == PieceAt(c.bitboards, to)
  {
    var rem := RemovePiece(c.bitboards, to);
    Applied(c.(bitboards := MovePiece(rem.board, from, to)), rem.removed)
  }

  /** On a board without double claims a normal move shows the mover on `to` and empties `from`. */
  lemma ApplyNormalView(c: BoardConfig, from: Square, to: Square)
    requires PieceAt(RemovePiece(c.bitboards, to).board, from).Some?
    requires SingleOccupancy(c.bitboards)
    ensures from != to
    ensures SingleOccupancy(ApplyNormal(c, from, to).config.bitboards)
    ensures forall x :: PieceAt(ApplyNormal(c, from, to).config.bitboards, x) == AfterMove(c.bitboards, from, to, x)
  {
    var rem := RemovePiece(c.bitboards, to);
    RemovePieceView(c.bitboards, to);
    MovePieceView(rem.board, from, to);
  }

  /**
    `apply_double_push`: moves the pawn two ranks and makes the square it
    skipped the en-passant target. Whatever stood on `to` is removed but not
    reported as captured.
   */
  function ApplyDoublePush(c: BoardConfig, from: Square, to: Square, p: Piece): (r: Applied)
    requires PieceAt(RemovePiece(c.bitboards, to).board, from).Some?
    requires Behind(p.color, to).Some?
    ensures r.config == c.(bitboards := r.config.bitboards, enPassantTarget := r.config.enPassantTarget)
    ensures r.config.enPassantTarget == Some(if p.color == White then to - 8 else to + 8)
    ensures r.captured == None
  {
    var rem := RemovePiece(c.bitboards, to);
    Applied(c.(bitboards := MovePiece(rem.board, from, to), enPassantTarget := Behind(p.color, to)), None)
  }

  /**
    On a board without double claims a double push shows the pawn on `to`
    and empties `from`; a piece that stood on `to` is gone and not reported.
   */
  lemma ApplyDoublePushView(c: BoardConfig, from: Square, to: Square, p: Piece)
    requires PieceAt(RemovePiece(c.bitboards, to).board, from).Some?
    requires Behind(p.color, to).Some?
    requires SingleOccupancy(c.bitboards)
    ensures SingleOccupancy(ApplyDoublePush(c, from, to, p).config.bitboards)
    ensures forall x :: PieceAt(ApplyDoublePush(c, from, to, p).config.bitboards, x) == AfterMove(c.bitboards, from, to, x)
  {
    var rem := RemovePiece(c.bitboards, to);
    RemovePieceView(c.bitboards, to);
    MovePieceView(rem.board, from, to);
  }

  /**
    `apply_en_passant`: moves the pawn onto `to`, then removes and reports
    the piece one rank behind `to` (from the mover's side), not the one on `to`.
   */
  function ApplyEnPassant(c: BoardConfig, from: Square, to: Square, p: Piece): (r: Applied)
    requires PieceAt(c.bitboards, from).Some?
    requires Behind(p.color, to).Some?
    ensures r.config == c.(bitboards := r.config.bitboards)
    ensures r.captured == PieceAt(MovePiece(c.bitboards, from, to), Behind(p.color, to).value)
  {
    var moved := MovePiece(c.bitboards, from, to);
    var rem := RemovePiece(moved, Behind(p.color, to).value);
    Applied(c.(bitboards := rem.board), rem.removed)
  }

  /**
    On a board without double claims, an en-passant move onto an empty
    square shows the pawn on `to`, empties `from`, and removes and reports
    the piece one rank behind `to`.
   */
  lemma ApplyEnPassantView(c: BoardConfig, from: Square, to: Square, p: Piece)
    requires PieceAt(c.bitboards, from).Some?
    requires Behind(p.color, to).Some?
    requires SingleOccupancy(c.bitboards) && PieceAt(c.bitboards, to).None?
    ensures var behind := Behind(p.color, to).value;
      ApplyEnPassant(c, from, to, p).captured == (if behind == from then None else PieceAt(c.bitboards, behind))
    ensures SingleOccupancy(ApplyEnPassant(c, from, to, p).config.bitboards)
    ensures forall x :: PieceAt(ApplyEnPassant(c, from, to, p).config.bitboards, x) ==
                        (if x == Behind(p.color, to).value then None else AfterMove(c.bitboards, from, to, x))
  {
    var moved := MovePiece(c.bitboards, from, to);
    MovePieceView(c.bitboards, from, to);
    RemovePieceView(moved, Behind(p.color, to).value);
  }

  /** `move_piece` on a castling route cannot panic: both king and rook squares are occupied in turn. */
  predicate CastleDefined(b: BoardMap, c: Color, side: CastleType) {
    var rt := Route(c, side);
    PieceAt(b, rt.kingFrom).Some? && PieceAt(MovePiece(b, rt.kingFrom, rt.kingTo), rt.rookFrom).Some?
  }

  /** What a board shows on square `x` after king and rook have travelled a castling route. */
  function AfterCastle(b: BoardMap, rt: CastleRoute, x: Square): Option<Piece> {
    if x == rt.kingTo then PieceAt(b, rt.kingFrom)
    else if x == rt.rookTo then PieceAt(b, rt.rookFrom)
    else if x == rt.kingFrom || x == rt.rookFrom then None
    else PieceAt(b, x)
  }

  /**
    `apply_castle`: moves the king and the rook of the mover's colour along
    the route of `side`, whatever pieces stand on those squares, and revokes
    both castling rights of that colour. Nothing is captured.
   */
  function ApplyCastle(c: BoardConfig, p: Piece, side: CastleType): (r: Applied)
    requires CastleDefined(c.bitboards, p.color, side)
    ensures r.captured == None
    ensures r.config == c.(bitboards := r.config.bitboards, castleFlags := r.config.castleFlags)
    ensures Rights(r.config.castleFlags) == Rights(c.castleFlags) - RightsOf(p.color)
    ensures r.config.castleFlags.bits & UnusedBits == c.castleFlags.bits & UnusedBits
  {
    var rt := Route(p.color, side);
    var kingMoved := MovePiece(c.bitboards, rt.kingFrom, rt.kingTo);
    var b := MovePiece(kingMoved, rt.rookFrom, rt.rookTo);
    Applied(c.(bitboards := b, castleFlags := RevokeColorRights(c.castleFlags, p.color)), None)
  }

  /**
    On a board without double claims, castling with a rook in the corner
    and empty landing squares shows king and rook on their landing squares
    and empties their home squares.
   */
  lemma ApplyCastleView(c: BoardConfig, p: Piece, side: CastleType)
    requires CastleDefined(c.bitboards, p.color, side)
    requires var rt := Route(p.color, side);
      && SingleOccupancy(c.bitboards) && PieceAt(c.bitboards, rt.rookFrom).Some?
      && PieceAt(c.bitboards, rt.kingTo).None? && PieceAt(c.bitboards, rt.rookTo).None?
    ensures SingleOccupancy(ApplyCastle(c, p, side).config.bitboards)
    ensures forall x :: PieceAt(ApplyCastle(c, p, side).config.bitboards, x) == AfterCastle(c.bitboards, Route(p.color, side), x)
  {
    CastleRouteView(c.bitboards, Route(p.color, side));
  }

  /** King then rook moved along a route of four distinct squares onto empty squares. */
  lemma CastleRouteView(b: BoardMap, rt: CastleRoute)
    requires rt.kingFrom != rt.kingTo && rt.kingFrom != rt.rookFrom && rt.kingFrom != rt.rookTo
    requires rt.kingTo != rt.rookFrom && rt.kingTo != rt.rookTo && rt.rookFrom != rt.rookTo
    requires SingleOccupancy(b) && PieceAt(b, rt.kingFrom).Some? && PieceAt(b, rt.rookFrom).Some?
    requires PieceAt(b, rt.kingTo).None? && PieceAt(b, rt.rookTo).None?
    ensures PieceAt(MovePiece(b, rt.kingFrom, rt.kingTo), rt.rookFrom).Some?
    ensures SingleOccupancy(MovePiece(MovePiece(b, rt.kingFrom, rt.kingTo), rt.rookFrom, rt.rookTo))
    ensures forall x :: PieceAt(MovePiece(MovePiece(b, rt.kingFrom, rt.kingTo), rt.rookFrom, rt.rookTo), x) == AfterCastle(b, rt, x)
  {
    var kingMoved := MovePiece(b, rt.kingFrom, rt.kingTo);
    MovePieceView(b, rt.kingFrom, rt.kingTo);
    assert PieceAt(kingMoved, rt.rookFrom) == AfterMove(b, rt.kingFrom, rt.kingTo, rt.rookFrom);
    assert PieceAt(kingMoved, rt.rookTo) == AfterMove(b, rt.kingFrom, rt.kingTo, rt.rookTo);
    MovePieceView(kingMoved, rt.rookFrom, rt.rookTo);
    AfterTwoMoves(b, kingMoved, MovePiece(kingMoved, rt.rookFrom, rt.rookTo), rt);
  }

  /** Square by square, moving the king and then the rook shows the view `AfterCastle` describes. */
  lemma AfterTwoMoves(b: BoardMap, kingMoved: BoardMap, both: BoardMap, rt: CastleRoute)
    requires rt.kingFrom != rt.kingTo && rt.kingFrom != rt.rookFrom && rt.kingFrom != rt.rookTo
    requires rt.kingTo != rt.rookFrom && rt.kingTo != rt.rookTo && rt.rookFrom != rt.rookTo
    requires forall x :: PieceAt(kingMoved, x) == AfterMove(b, rt.kingFrom, rt.kingTo, x)
    requires forall x :: PieceAt(both, x) == AfterMove(kingMoved, rt.rookFrom, rt.rookTo, x)
    ensures forall x :: PieceAt(both, x) == AfterCastle(b, rt, x)
  {
    forall x ensures PieceAt(both, x) == AfterCastle(b, rt, x) {
      assert PieceAt(both, x) == AfterMove(kingMoved, rt.rookFrom, rt.rookTo, x);
      assert PieceAt(kingMoved, x) == AfterMove(b, rt.kingFrom, rt.kingTo, x);
      assert PieceAt(kingMoved, rt.rookFrom) == AfterMove(b, rt.kingFrom, rt.kingTo, rt.rookFrom);
    }
  }

  /**
    `apply_promotion`, with the capture completed: takes the pawn off
    `from`, takes the piece on `to` off its own piece-set and reports it as
    captured, and adds the promotion piece on `to`. The repository's version
    leaves the captured piece in its set; `Findings.ApplyPromotionAsWritten`
    models that and shows what goes wrong.
   */
  function ApplyPromotion(c: BoardConfig, from: Square, to: Square, prom: Piece): (r: Applied)
    ensures r.config == c.(bitboards := r.config.bitboards)
    ensures r.captured == PieceAt(RemovePiece(c.bitboards, from).board, to)
    ensures to in r.config.bitboards[Index(prom)]
    ensures r.captured.Some? && r.captured.value != prom ==> to !in r.config.bitboards[Index(r.captured.value)]
  {
    var lifted := RemovePiece(c.bitboards, from).board;
    var taken := RemovePiece(lifted, to);
    IndexInjectiveAll();
    Applied(c.(bitboards := AddPiece(taken.board, prom, to)), taken.removed)
  }

  /**
    On a board without double claims, a promotion from `from` to another
    square captures whatever stood on `to`, shows the promotion piece there
    alone, empties `from` and keeps single occupancy.
   */
  lemma ApplyPromotionView(c: BoardConfig, from: Square, to: Square, prom: Piece)
    requires SingleOccupancy(c.bitboards) && from != to
    ensures ApplyPromotion(c, from, to, prom).captured == PieceAt(c.bitboards, to)
    ensures SingleOccupancy(ApplyPromotion(c, from, to, prom).config.bitboards)
    ensures forall x :: PieceAt(ApplyPromotion(c, from, to, prom).config.bitboards, x) ==
                        (if x == to then Some(prom) else if x == from then None else PieceAt(c.bitboards, x))
  {
    var lifted := RemovePiece(c.bitboards, from).board;
    RemovePieceView(c.bitboards, from);
    var taken := RemovePiece(lifted, to).board;
    RemovePieceView(lifted, to);
    AddPieceView(taken, prom, to);
  }

  /** The piece on the origin square of a move, the one `apply_move` reads first. */
  function Mover(c: BoardConfig, m: Move): Piece
    requires PieceAt(c.bitboards, m.from).Some?
  {
    PieceAt(c.bitboards, m.from).value
  }

  /** The mover has the colour whose turn it is, so `apply_move` does not return early. */
  predicate Accepted(c: BoardConfig, m: Move)
    requires PieceAt(c.bitboards, m.from).Some?
  {
    Mover(c, m).color == c.activeColor
  }

  /** The move-kind helper for `m` does not panic. */
  predicate DispatchDefined(c: BoardConfig, m: Move, p: Piece) {
    match m.moveType
    case Normal => PieceAt(RemovePiece(c.bitboards, m.to).board, m.from).Some?
    case DoublePush => PieceAt(RemovePiece(c.bitboards, m.to).board, m.from).Some? && Behind(p.color, m.to).Some?
    case EnPassant => PieceAt(c.bitboards, m.from).Some? && Behind(p.color, m.to).Some?
    case Castle(side) => CastleDefined(c.bitboards, p.color, side)
    case Promotion(prom) => prom.Some?
  }

  /** `apply_move` does not panic: the origin square is occupied and, for the side to move, the helper is defined. */
  predicate CanApply(c: BoardConfig, m: Move) {
    && PieceAt(c.bitboards, m.from).Some?
    && (Accepted(c, m) ==> DispatchDefined(c, m, Mover(c, m)))
  }

  /** The `match m.move_type` of `apply_move`. */
  function Dispatch(c: BoardConfig, m: Move, p: Piece): (r: Applied)
    requires DispatchDefined(c, m, p)
    ensures r.config.activeColor == c.activeColor && r.config.moveHistory == c.moveHistory
    ensures r.config.halfmoveClock == c.halfmoveClock && r.config.fullmoveNumber == c.fullmoveNumber
    ensures m.moveType.DoublePush? ==> r.config.enPassantTarget == Behind(p.color, m.to)
    ensures !m.moveType.DoublePush? ==> r.config.enPassantTarget == c.enPassantTarget
    ensures !m.moveType.Castle? ==> r.config.castleFlags == c.castleFlags
    ensures m.moveType.Castle? ==>
      && Rights(r.config.castleFlags) == Rights(c.castleFlags) - RightsOf(p.color)
      && r.config.castleFlags.bits & UnusedBits == c.castleFlags.bits & UnusedBits
  {
    match m.moveType
    case Normal => ApplyNormal(c, m.from, m.to)
    case DoublePush => ApplyDoublePush(c, m.from, m.to, p)
    case EnPassant => ApplyEnPassant(c, m.from, m.to, p)
    case Castle(side) => ApplyCastle(c, p, side)
    case Promotion(prom) => ApplyPromotion(c, m.from, m.to, prom.value)
  }

  /**
    The bookkeeping `apply_move` does after the move-kind helper: clear the
    en-passant target unless the move was a double push, revoke castling
    rights, count the move, hand the turn over and log a commit holding the
    capture, the previous en-passant target and the flag bits that changed.
   */
  function Finish(c: BoardConfig, m: Move, p: Piece, a: Applied): BoardConfig {
    var d := a.config;
    var ep := if !m.moveType.DoublePush? then None else d.enPassantTarget;
    var flags := RevokeRights(d.castleFlags, p, m.from);
    var full := if p.color == Black then d.fullmoveNumber + 1 else d.fullmoveNumber;
    var commit := MoveCommit(m, a.captured, c.enPassantTarget, Xor(flags, c.castleFlags));
    ToggleActiveColor(d.(
      enPassantTarget := ep,
      castleFlags := flags,
      fullmoveNumber := full,
      halfmoveClock := d.halfmoveClock + 1,
      moveHistory := d.moveHistory + [commit]))
  }

  /**
    `apply_move`. A piece of the side not to move leaves the position as it
    is; otherwise the move is played and one commit is pushed on the log.
   */
  function ApplyMove(c: BoardConfig, m: Move): (r: BoardConfig)
    requires CanApply(c, m)
    ensures !Accepted(c, m) ==> r == c
    ensures Accepted(c, m) ==> r.activeColor == Opponent(c.activeColor)
    ensures Accepted(c, m) ==> r.halfmoveClock == c.halfmoveClock + 1
    ensures Accepted(c, m) ==> r.fullmoveNumber == c.fullmoveNumber + (if Mover(c, m).color == Black then 1 else 0)
    ensures Accepted(c, m) ==>
      && |r.moveHistory| == |c.moveHistory| + 1
      && r.moveHistory[..|c.moveHistory|] == c.moveHistory
      && r.moveHistory[|c.moveHistory|].m == m
      && r.moveHistory[|c.moveHistory|].epTarget == c.enPassantTarget
      && r.moveHistory[|c.moveHistory|].castleDelta == Xor(r.castleFlags, c.castleFlags)
    ensures Accepted(c, m) ==>
      r.enPassantTarget == (if m.moveType.DoublePush? then Behind(Mover(c, m).color, m.to) else None)
  {
    var p := Mover(c, m);
    if p.color != c.activeColor then c
    else Finish(c, m, p, Dispatch(c, m, p))
  }

  /**
    An accepted move never grants a castling right. It revokes exactly the
    rights `RevokedBy` names for the mover, its origin and whether it
    castles, and leaves the unused bits of the flag byte alone.
   */
  lemma ApplyMoveCastleRights(c: BoardConfig, m: Move)
    requires CanApply(c, m) && Accepted(c, m)
    ensures Rights(ApplyMove(c, m).castleFlags) == Rights(c.castleFlags) - RevokedBy(Mover(c, m), m.from, m.moveType.Castle?)
    ensures ApplyMove(c, m).castleFlags.bits & UnusedBits == c.castleFlags.bits & UnusedBits
    ensures forall r :: Can(ApplyMove(c, m).castleFlags, r) ==> Can(c.castleFlags, r)
  {
    var p := Mover(c, m);
    var during := Dispatch(c, m, p).config.castleFlags;
    assert ApplyMove(c, m).castleFlags == RevokeRights(during, p, m.from);
    RevokeAfterCastling(c.castleFlags, during, p, m.from, m.moveType.Castle?);
  }

  // ---------------------------------------------------------------------------
  // undo

  /**
    `undo_normal`: moves the piece on `to` back to `from` and puts the
    captured piece, if any, back on `to`.
   */
  function UndoNormal(b: BoardMap, from: Square, to: Square, cap: Option<Piece>): BoardMap
    requires PieceAt(b, to).Some?
  {
    var moved := MovePiece(b, to, from);
    if cap.Some? then AddPiece(moved, cap.value, to) else moved
  }

  /** On a board without double claims, `undo_normal` shows the mover back on `from` and the capture back on `to`. */
  lemma UndoNormalView(b: BoardMap, from: Square, to: Square, cap: Option<Piece>)
    requires PieceAt(b, to).Some?
    requires SingleOccupancy(b) && PieceAt(b, from).None?
    ensures SingleOccupancy(UndoNormal(b, from, to, cap))
    ensures forall x :: PieceAt(UndoNormal(b, from, to, cap), x) == (if x == to then cap else AfterMove(b, to, from, x))
  {
    var moved := MovePiece(b, to, from);
    MovePieceView(b, to, from);
    if cap.Some? {
      AddPieceView(moved, cap.value, to);
    }
  }

  /** `undo_double_push`: moves the pawn on `to` back to `from`. */
  function UndoDoublePush(b: BoardMap, from: Square, to: Square): BoardMap
    requires PieceAt(b, to).Some?
  {
    MovePiece(b, to, from)
  }

  /** On a board without double claims, `undo_double_push` shows the pawn back on `from` and empties `to`. */
  lemma UndoDoublePushView(b: BoardMap, from: Square, to: Square)
    requires PieceAt(b, to).Some?
    requires SingleOccupancy(b) && PieceAt(b, from).None?
    ensures SingleOccupancy(UndoDoublePush(b, from, to))
    ensures forall x :: PieceAt(UndoDoublePush(b, from, to), x) == AfterMove(b, to, from, x)
  {
    MovePieceView(b, to, from);
  }

  /**
    `undo_en_passant`: moves the pawn on `to` back to `from` and puts the
    captured piece, if any, back one rank behind `to`.
   */
  function UndoEnPassant(b: BoardMap, from: Square, to: Square, p: Piece, cap: Option<Piece>): BoardMap
    requires PieceAt(b, to).Some?
    requires cap.Some? ==> Behind(p.color, to).Some?
  {
    var moved := MovePiece(b, to, from);
    if cap.Some? then AddPiece(moved, cap.value, Behind(p.color, to).value) else moved
  }

  /**
    On a board without double claims, `undo_en_passant` shows the pawn back
    on `from`, empties `to` and puts the captured piece back one rank behind `to`.
   */
  lemma UndoEnPassantView(b: BoardMap, from: Square, to: Square, p: Piece, cap: Option<Piece>)
    requires PieceAt(b, to).Some?
    requires cap.Some? ==> Behind(p.color, to).Some?
    requires SingleOccupancy(b) && PieceAt(b, from).None?
    requires cap.Some? ==> Behind(p.color, to).value != from && PieceAt(b, Behind(p.color, to).value).None?
    ensures SingleOccupancy(UndoEnPassant(b, from, to, p, cap))
    ensures forall x :: PieceAt(UndoEnPassant(b, from, to, p, cap), x) ==
                        (if cap.Some? && x == Behind(p.color, to).value then cap else AfterMove(b, to, from, x))
  {
    var moved := MovePiece(b, to, from);
    MovePieceView(b, to, from);
    if cap.Some? {
      AddPieceView(moved, cap.value, Behind(p.color, to).value);
    }
  }

  /** `move_piece` on a castling route backwards cannot panic. */
  predicate UndoCastleDefined(b: BoardMap, c: Color, side: CastleType) {
    var rt := Route(c, side);
    PieceAt(b, rt.kingTo).Some? && PieceAt(MovePiece(b, rt.kingTo, rt.kingFrom), rt.rookTo).Some?
  }

  /** `undo_castle`: moves king and rook of the colour of `p` back along the route of `side`. */
  function UndoCastle(b: BoardMap, p: Piece, side: CastleType): BoardMap
    requires UndoCastleDefined(b, p.color, side)
  {
    var rt := Route(p.color, side);
    MovePiece(MovePiece(b, rt.kingTo, rt.kingFrom), rt.rookTo, rt.rookFrom)
  }

  /**
    On a board without double claims, `undo_castle` shows king and rook back
    on their home squares and empties their landing squares.
   */
  lemma UndoCastleView(b: BoardMap, p: Piece, side: CastleType)
    requires UndoCastleDefined(b, p.color, side)
    requires var rt := Route(p.color, side);
      && SingleOccupancy(b) && PieceAt(b, rt.rookTo).Some?
      && PieceAt(b, rt.kingFrom).None? && PieceAt(b, rt.rookFrom).None?
    ensures SingleOccupancy(UndoCastle(b, p, side))
    ensures var rt := Route(p.color, side);
      forall x :: PieceAt(UndoCastle(b, p, side), x) == AfterCastle(b, Reversed(rt), x)
  {
    var rt := Route(p.color, side);
    CastleRouteView(b, Reversed(rt));
  }

  /**
    `undo_promotion`: takes the promoted piece off `to`, puts a pawn of its
    colour back on `from` and the captured piece, if any, back on `to`.
   */
  function UndoPromotion(b: BoardMap, from: Square, to: Square, p: Piece, cap: Option<Piece>): BoardMap {
    var lifted := RemovePiece(b, to).board;
    var pawnBack := AddPiece(lifted, Piece(p.color, Pawn), from);
    if cap.Some? then AddPiece(pawnBack, cap.value, to) else pawnBack
  }

  /**
    On a board without double claims, `undo_promotion` shows a pawn of the
    colour of `p` back on `from` and the captured piece, if any, on `to`.
   */
  lemma UndoPromotionView(b: BoardMap, from: Square, to: Square, p: Piece, cap: Option<Piece>)
    requires SingleOccupancy(b) && PieceAt(b, from).None? && from != to
    ensures SingleOccupancy(UndoPromotion(b, from, to, p, cap))
    ensures forall x :: PieceAt(UndoPromotion(b, from, to, p, cap), x) ==
                        (if x == from then Some(Piece(p.color, Pawn)) else if x == to then cap else PieceAt(b, x))
  {
    var lifted := RemovePiece(b, to).board;
    var pawnBack := AddPiece(lifted, Piece(p.color, Pawn), from);
    RemovePieceView(b, to);
    AddPieceView(lifted, Piece(p.color, Pawn), from);
    if cap.Some? {
      AddPieceView(pawnBack, cap.value, to);
    }
  }

  /** The inverse helper for the logged move `m` does not panic; `p` is the piece on `m.to`. */
  predicate UndoDispatchDefined(b: BoardMap, m: Move, p: Piece, cap: Option<Piece>) {
    match m.moveType
    case Normal => true
    case DoublePush => true
    case EnPassant => cap.Some? ==> Behind(p.color, m.to).Some?
    case Castle(side) => UndoCastleDefined(b, p.color, side)
    case Promotion(prom) => prom.Some?
  }

  /** The most recent commit of the log. */
  function LastCommit(c: BoardConfig): MoveCommit
    requires |c.moveHistory| > 0
  {
    c.moveHistory[|c.moveHistory| - 1]
  }

  /**
    `undo` does not panic: the destination of the last logged move is
    occupied, its inverse helper is defined, and neither counter drops below zero.
   */
  predicate CanUndo(c: BoardConfig) {
    |c.moveHistory| > 0 ==>
      var commit := LastCommit(c);
      && PieceAt(c.bitboards, commit.m.to).Some?
      && UndoDispatchDefined(c.bitboards, commit.m, PieceAt(c.bitboards, commit.m.to).value, commit.captured)
      && c.halfmoveClock >= 1
      && (PieceAt(c.bitboards, commit.m.to).value.color == Black ==> c.fullmoveNumber >= 1)
  }

  /** The `match m.move_type` of `undo`. */
  function UndoDispatch(b: BoardMap, m: Move, p: Piece, cap: Option<Piece>): BoardMap
    requires PieceAt(b, m.to).Some?
    requires UndoDispatchDefined(b, m, p, cap)
  {
    match m.moveType
    case Normal => UndoNormal(b, m.from, m.to, cap)
    case DoublePush => UndoDoublePush(b, m.from, m.to)
    case EnPassant => UndoEnPassant(b, m.from, m.to, p, cap)
    case Castle(side) => UndoCastle(b, p, side)
    case Promotion(_) => UndoPromotion(b, m.from, m.to, p, cap)
  }

  /**
    `undo`: on an empty log nothing happens. Otherwise the last commit is
    popped, the move it records is reversed on the board, the en-passant
    target is taken from the commit, the recorded flag delta is XORed back,
    both counters step back and the turn is handed back. The colour that
    decides the full-move counter is that of the piece on the move's destination.
   */
  function Undo(c: BoardConfig): (r: BoardConfig)
    requires CanUndo(c)
    ensures |c.moveHistory| == 0 ==> r == c
    ensures |c.moveHistory| > 0 ==>
      && r.moveHistory == c.moveHistory[..|c.moveHistory| - 1]
      && r.enPassantTarget == LastCommit(c).epTarget
      && Xor(r.castleFlags, c.castleFlags) == LastCommit(c).castleDelta
      && r.halfmoveClock + 1 == c.halfmoveClock
      && r.fullmoveNumber + (if PieceAt(c.bitboards, LastCommit(c).m.to).value.color == Black then 1 else 0) == c.fullmoveNumber
      && r.activeColor == Opponent(c.activeColor)
      && r.bitboards == UndoDispatch(c.bitboards, LastCommit(c).m, PieceAt(c.bitboards, LastCommit(c).m.to).value, LastCommit(c).captured)
  {
    if |c.moveHistory| == 0 then c
    else
      var commit := LastCommit(c);
      var m := commit.m;
      var p := PieceAt(c.bitboards, m.to).value;
      var b := UndoDispatch(c.bitboards, m, p, commit.captured);
      var full := if p.color == Black then c.fullmoveNumber - 1 else c.fullmoveNumber;
      ToggleActiveColor(c.(
        bitboards := b,
        fullmoveNumber := full,
        enPassantTarget := commit.epTarget,
        castleFlags := Xor(c.castleFlags, commit.castleDelta),
        halfmoveClock := c.halfmoveClock - 1,
        moveHistory := c.moveHistory[..|c.moveHistory| - 1]))
  }
}

=== FILE: castling.dfy ===
/**
  The castle-rights flag byte of a position (`CastleFlags` in src/data/mod.rs).
  Four bits of one unsigned byte carry the rights; each right has its own
  query, set and clear operation, and two flag bytes compose by XOR, which is
  how the undo log records the rights a move revoked.
 */
module Castling {
  import opened Wrappers
  import opened Pieces
  import opened Squares

  /** The four castling rights; "oo" in the source is king side, "ooo" queen side. */
  datatype Right = WhiteKingSide | WhiteQueenSide | BlackKingSide | BlackQueenSide

  const AllRights: set<Right> := {WhiteKingSide, WhiteQueenSide, BlackKingSide, BlackQueenSide}

  /** The side a castling move goes to (`CastleType`). */
  datatype CastleType = KingSide | QueenSide

  /** The right to castle to `side` for colour `c`. */
  function RightFor(c: Color, side: CastleType): (r: Right)
    ensures Owner(r) == c
  {
    match (c, side)
    case (White, KingSide) => WhiteKingSide
    case (White, QueenSide) => WhiteQueenSide
    case (Black, KingSide) => BlackKingSide
    case (Black, QueenSide) => BlackQueenSide
  }

  /** The colour a right belongs to. */
  function Owner(r: Right): Color {
    match r
    case WhiteKingSide => White
    case WhiteQueenSide => White
    case BlackKingSide => Black
    case BlackQueenSide => Black
  }

  /** The home square of the rook a right castles with. */
  function RookHome(r: Right): Square {
    match r
    case WhiteKingSide => H1
    case WhiteQueenSide => A1
    case BlackKingSide => H8
    case BlackQueenSide => A8
  }

  /** Both rights of one colour. */
  function RightsOf(c: Color): (s: set<Right>)
    ensures forall r :: r in s <==> Owner(r) == c
  {
    set r | r in AllRights && Owner(r) == c
  }

  /**
    The rights a move revokes, stated right by right: a right is lost when
    the mover owns it and the move castles, or moves the king, or moves the
    rook away from that right's rook home. Where the mover lands plays no part.
   */
  function RevokedBy(p: Piece, from: Square, castles: bool): (s: set<Right>)
    ensures forall r :: r in s <==>
      Owner(r) == p.color && (castles || p.kind == King || (p.kind == Rook && from == RookHome(r)))
  {
    set r | r in AllRights && Owner(r) == p.color && (castles || p.kind == King || (p.kind == Rook && from == RookHome(r)))
  }

  /** The bit of the flag byte that holds a right. */
  function Bit(r: Right): (b: bv8)
    ensures b == 1 || b == 2 || b == 4 || b == 8
  {
    match r
    case WhiteKingSide => 1
    case WhiteQueenSide => 2
    case BlackKingSide => 4
    case BlackQueenSide => 8
  }

  /** The bits of the byte that hold no right; no operation here touches them. */
  const UnusedBits: bv8 := 0xF0

  /** The flag byte, all eight bits of the source's `u8`. */
  datatype CastleFlags = CastleFlags(bits: bv8)

  /** `can_white_oo` and its three siblings. */
  predicate Can(f: CastleFlags, r: Right) {
    f.bits & Bit(r) != 0
  }

  /** The rights a flag byte grants, as a set. */
  function Rights(f: CastleFlags): (s: set<Right>)
    ensures forall r :: r in s <==> Can(f, r)
  {
    set r | r in AllRights && Can(f, r)
  }

  /** `set_white_oo` and its three siblings: grants one right and changes no other bit. */
  function Set(f: CastleFlags, r: Right): (g: CastleFlags)
    ensures Can(g, r)
    ensures forall s :: s != r ==> (Can(g, s) <==> Can(f, s))
    ensures g.bits & UnusedBits == f.bits & UnusedBits
  {
    CastleFlags(f.bits | Bit(r))
  }

  /** `unset_white_oo` and its three siblings: revokes one right and changes no other bit. */
  function Unset(f: CastleFlags, r: Right): (g: CastleFlags)
    ensures !Can(g, r)
    ensures forall s :: s != r ==> (Can(g, s) <==> Can(f, s))
    ensures g.bits & UnusedBits == f.bits & UnusedBits
  {
    CastleFlags(f.bits & !Bit(r))
  }

  /**
    The castling-state update `apply_move` performs after every accepted
    move of piece `p` from `from`: a rook leaving a corner loses that
    corner's right, a king move loses both rights of its colour.
   */
  function RevokeRights(f: CastleFlags, p: Piece, from: Square): CastleFlags {
    if p == Piece(White, Rook) then
        if from == A1 then Unset(f, WhiteQueenSide)
        else if from == H1 then Unset(f, WhiteKingSide)
        else f
      else if p == Piece(Black, Rook) then
        if from == A8 then Unset(f, BlackQueenSide)
        else if from == H8 then Unset(f, BlackKingSide)
        else f
      else if p == Piece(White, King) then
        Unset(Unset(f, WhiteKingSide), WhiteQueenSide)
      else if p == Piece(Black, King) then
        Unset(Unset(f, BlackKingSide), BlackQueenSide)
    else f
  }

  /** Clears both rights of colour `c`, king side first, as `apply_castle` does. */
  function RevokeColorRights(f: CastleFlags, c: Color): (g: CastleFlags)
    ensures Rights(g) == Rights(f) - RightsOf(c)
    ensures g.bits & UnusedBits == f.bits & UnusedBits
  {
    var ks, qs := RightFor(c, KingSide), RightFor(c, QueenSide);
    RightsOfPair(c);
    UnsetPair(f, ks, qs);
    Unset(Unset(f, ks), qs)
  }

  /** Each colour owns exactly its king-side and its queen-side right. */
  lemma RightsOfPair(c: Color)
    ensures RightsOf(c) == {RightFor(c, KingSide), RightFor(c, QueenSide)}
  {
    if c == White {
      assert RightsOf(c) == {WhiteKingSide, WhiteQueenSide};
    } else {
      assert RightsOf(c) == {BlackKingSide, BlackQueenSide};
    }
  }

  /** Two clears in a row remove exactly those two rights and keep the unused bits. */
  lemma UnsetPair(f: CastleFlags, r1: Right, r2: Right)
    ensures Rights(Unset(Unset(f, r1), r2)) == Rights(f) - {r1, r2}
    ensures Unset(Unset(f, r1), r2).bits & UnusedBits == f.bits & UnusedBits
  {
    var g := Unset(f, r1);
    RightsOfUnset(f, r1);
    RightsOfUnset(g, r2);
    assert Rights(f) - {r1} - {r2} == Rights(f) - {r1, r2};
  }

  /** A castling move revokes both rights of the mover on top of what the moved piece revokes. */
  lemma CastlingRevokesColor(p: Piece, from: Square)
    ensures RevokedBy(p, from, true) == RightsOf(p.color) + RevokedBy(p, from, false)
  {
  }

  /**
    The rights left once `RevokeRights` has run on flags `during`, which a
    castling move has already stripped of the mover's rights and any other
    move has left as they were `before`.
   */
  lemma RevokeAfterCastling(before: CastleFlags, during: CastleFlags, p: Piece, from: Square, castles: bool)
    requires castles ==> Rights(during) == Rights(before) - RightsOf(p.color)
    requires castles ==> during.bits & UnusedBits == before.bits & UnusedBits
    requires !castles ==> during == before
    ensures Rights(RevokeRights(during, p, from)) == Rights(before) - RevokedBy(p, from, castles)
    ensures RevokeRights(during, p, from).bits & UnusedBits == before.bits & UnusedBits
    ensures forall r :: Can(RevokeRights(during, p, from), r) ==> Can(before, r)
  {
    RevokeRightsSpec(during, p, from);
    if castles {
      CastlingRevokesColor(p, from);
    }
  }

  /** The rights left by `RevokeRights` are exactly the old ones minus those `RevokedBy` names. */
  lemma RevokeRightsSpec(f: CastleFlags, p: Piece, from: Square)
    ensures Rights(RevokeRights(f, p, from)) == Rights(f) - RevokedBy(p, from, false)
    ensures RevokeRights(f, p, from).bits & UnusedBits == f.bits & UnusedBits
  {
    if p.kind == Rook {
      RevokeRookRights(f, p.color, from);
    } else if p.kind == King {
      RevokeKingRights(f, p.color, from);
    } else {
      assert RevokeRights(f, p, from) == f;
      assert RevokedBy(p, from, false) == {};
    }
  }

  lemma RevokeRookRights(f: CastleFlags, c: Color, from: Square)
    ensures Rights(RevokeRights(f, Piece(c, Rook), from)) == Rights(f) - RevokedBy(Piece(c, Rook), from, false)
    ensures RevokeRights(f, Piece(c, Rook), from).bits & UnusedBits == f.bits & UnusedBits
  {
    var g, revoked := RevokeRights(f, Piece(c, Rook), from), RevokedBy(Piece(c, Rook), from, false);
    var corner := if c == White then (if from == A1 then Some(WhiteQueenSide) else if from == H1 then Some(WhiteKingSide) else None)
      else (if from == A8 then Some(BlackQueenSide) else if from == H8 then Some(BlackKingSide) else None);
    if corner.Some? {
      assert g == Unset(f, corner.value);
      RightsOfSetUnset(f, corner.value);
      assert revoked == {corner.value};
    } else {
      assert g == f;
      assert revoked == {};
    }
  }

  lemma RevokeKingRights(f: CastleFlags, c: Color, from: Square)
    ensures Rights(RevokeRights(f, Piece(c, King), from)) == Rights(f) - RevokedBy(Piece(c, King), from, false)
    ensures RevokeRights(f, Piece(c, King), from).bits & UnusedBits == f.bits & UnusedBits
  {
    var ks, qs := RightFor(c, KingSide), RightFor(c, QueenSide);
    assert RevokeRights(f, Piece(c, King), from) == Unset(Unset(f, ks), qs);
    UnsetPair(f, ks, qs);
    RightsOfPair(c);
    assert RevokedBy(Piece(c, King), from, false) == RightsOf(c);
  }

  /** Bitwise XOR of two flag bytes, the `castledelta` of a move commit. */
  function Xor(a: CastleFlags, b: CastleFlags): CastleFlags {
    CastleFlags(a.bits ^ b.bits)
  }

  /** Two flag bytes are equal when they grant the same rights and agree on the unused bits. */
  lemma FlagsDeterminedByRights(f: CastleFlags, g: CastleFlags)
    requires Rights(f) == Rights(g)
    requires f.bits & UnusedBits == g.bits & UnusedBits
    ensures f == g
  {
    assert Can(f, WhiteKingSide) == Can(g, WhiteKingSide);
    assert Can(f, WhiteQueenSide) == Can(g, WhiteQueenSide);
    assert Can(f, BlackKingSide) == Can(g, BlackKingSide);
    assert Can(f, BlackQueenSide) == Can(g, BlackQueenSide);
  }

  /** Applying the delta `after XOR before` to `after` gives back `before`. */
  lemma XorDeltaRestores(before: CastleFlags, after: CastleFlags)
    ensures Xor(after, Xor(after, before)) == before
  {
  }

  /** A flag byte whose delta to `after` is the delta recorded from `before` to `after` is `before`. */
  lemma XorDeltaDetermines(restored: CastleFlags, after: CastleFlags, before: CastleFlags)
    requires Xor(restored, after) == Xor(after, before)
    ensures restored == before
  {
  }

  /** In terms of the rights granted, Set adds exactly its right and Unset removes exactly its right. */
  lemma RightsOfSetUnset(f: CastleFlags, r: Right)
    ensures Rights(Set(f, r)) == Rights(f) + {r}
    ensures Rights(Unset(f, r)) == Rights(f) - {r}
  {
    RightsOfSet(f, r);
    RightsOfUnset(f, r);
  }

  lemma RightsOfSet(f: CastleFlags, r: Right)
    ensures Rights(Set(f, r)) == Rights(f) + {r}
  {
    var g := Set(f, r);
    forall s ensures s in Rights(g) <==> s in Rights(f) + {r} {
      if s == r {
        assert Can(g, s);
      } else {
        assert Can(g, s) <==> Can(f, s);
      }
    }
  }

  lemma RightsOfUnset(f: CastleFlags, r: Right)
    ensures Rights(Unset(f, r)) == Rights(f) - {r}
  {
    var h := Unset(f, r);
    forall s ensures s in Rights(h) <==> s in Rights(f) - {r} {
      if s == r {
        assert !Can(h, s);
      } else {
        assert Can(h, s) <==> Can(f, s);
      }
    }
  }

  /** Set and Unset of the same right undo each other on a byte where that right was granted, respectively withheld. */
  lemma SetUnsetInverse(f: CastleFlags, r: Right)
    ensures Can(f, r) ==> Set(Unset(f, r), r) == f
    ensures !Can(f, r) ==> Unset(Set(f, r), r) == f
  {
    if Can(f, r) {
      RightsOfSetUnset(f, r);
      RightsOfSetUnset(Unset(f, r), r);
      FlagsDeterminedByRights(Set(Unset(f, r), r), f);
    } else {
      RightsOfSetUnset(f, r);
      RightsOfSetUnset(Set(f, r), r);
      FlagsDeterminedByRights(Unset(Set(f, r), r), f);
    }
  }
}

=== FILE: findings.dfy ===
/**
  `apply_promotion` as the repository writes it reports the piece on the
  destination as captured but never takes it off its own piece-set. A
  capturing promotion then leaves two pieces claiming one square, and when
  Black promotes onto a White piece, `undo` reads the White piece as the
  mover and rebuilds the wrong position. The rest of the model uses the
  corrected `BoardConfigs.ApplyPromotion`.
 */
module Findings {
  import opened Wrappers
  import opened Pieces
  import opened Squares
  import opened Castling
  import opened Moves
  import opened Bitboards
  import opened BoardConfigs
  import opened RoundTrip

  /** `apply_promotion` as written: the piece on `to` is reported as captured but keeps its square. */
  function ApplyPromotionAsWritten(c: BoardConfig, from: Square, to: Square, prom: Piece): (r: Applied)
    ensures r.config == c.(bitboards := r.config.bitboards)
    ensures r.captured == PieceAt(RemovePiece(c.bitboards, from).board, to)
    ensures to in r.config.bitboards[Index(prom)]
    ensures r.captured.Some? ==> to in r.config.bitboards[Index(r.captured.value)]
  {
    var lifted := RemovePiece(c.bitboards, from).board;
    var cap := PieceAt(lifted, to);
    Applied(c.(bitboards := AddPiece(lifted, prom, to)), cap)
  }

  /** `apply_move` with the promotion helper as written; every other move kind is unchanged. */
  function ApplyMoveAsWritten(c: BoardConfig, m: Move): (r: BoardConfig)
    requires CanApply(c, m)
    ensures !m.moveType.Promotion? ==> r == ApplyMove(c, m)
    ensures !Accepted(c, m) ==> r == c
    ensures m.moveType.Promotion? && PieceAt(RemovePiece(c.bitboards, m.from).board, m.to).None? ==> r == ApplyMove(c, m)
  {
    if Accepted(c, m) && m.moveType.Promotion? then
      var p := Mover(c, m);
      Finish(c, m, p, ApplyPromotionAsWritten(c, m.from, m.to, m.moveType.promotion.value))
    else ApplyMove(c, m)
  }

  /**
    On a promotion onto a square that is empty once the pawn has left, the
    two helpers do the same thing: there is nothing to capture, so the
    as-written `apply_move` and the model's agree.
   */
  lemma AsWrittenAgreesOnEmptyTarget(c: BoardConfig, m: Move)
    requires CanApply(c, m) && m.moveType.Promotion?
    requires PieceAt(RemovePiece(c.bitboards, m.from).board, m.to).None?
    ensures ApplyMoveAsWritten(c, m) == ApplyMove(c, m)
  {
  }

  /**
    The round trip holds for the as-written `apply_move` on every move the
    model's round trip covers, except a promotion that captures: only there
    do the two `apply_move`s differ.
   */
  lemma AsWrittenRoundTrip(c: BoardConfig, m: Move)
    requires SingleOccupancy(c.bitboards)
    requires CanApply(c, m) && Accepted(c, m)
    requires RoundTripShape(c, m)
    requires m.moveType.Promotion? ==> PieceAt(RemovePiece(c.bitboards, m.from).board, m.to).None?
    ensures CanUndo(ApplyMoveAsWritten(c, m))
    ensures Undo(ApplyMoveAsWritten(c, m)) == c
  {
    if m.moveType.Promotion? {
      AsWrittenAgreesOnEmptyTarget(c, m);
    }
    ApplyUndoRoundTrip(c, m);
  }

  /**
    Whenever a promotion lands on a piece other than the promotion piece
    itself, the as-written helper leaves both claiming the destination.
   */
  lemma PromotionCaptureDoubleClaims(c: BoardConfig, from: Square, to: Square, prom: Piece)
    requires SingleOccupancy(c.bitboards) && from != to
    requires PieceAt(c.bitboards, to).Some? && PieceAt(c.bitboards, to).value != prom
    ensures ApplyPromotionAsWritten(c, from, to, prom).captured == PieceAt(c.bitboards, to)
    ensures !SingleOccupancy(ApplyPromotionAsWritten(c, from, to, prom).config.bitboards)
  {
    var x := PieceAt(c.bitboards, to).value;
    RemovePieceView(c.bitboards, from);
    var b1 := ApplyPromotionAsWritten(c, from, to, prom).config.bitboards;
    IndexInjective(x, prom);
    assert to in b1[Index(x)] && to in b1[Index(prom)];
  }

  /** Black to move, a Black pawn on a2 and a White rook on a1; nothing else on the board. */
  const CounterBoard: BoardMap := [{A1}, {}, {}, {}, {}, {}, {}, {}, {}, {}, {}, {8}]
  const CounterPosition: BoardConfig := BoardConfig(Black, None, CastleFlags(0), 0, 1, CounterBoard, [])
  /** a2 takes a1 and promotes to a Black queen. */
  const CounterMove: Move := Move(8, A1, Promotion(Some(Piece(Black, Queen))))

  /** The position has no double claims: the pawn stands alone on a2 and the rook alone on a1. */
  lemma CounterPositionShows()
    ensures SingleOccupancy(CounterBoard)
    ensures PieceAt(CounterBoard, 8) == Some(Piece(Black, Pawn))
    ensures PieceAt(CounterBoard, A1) == Some(Piece(White, Rook))
  {
    var b := CounterBoard;
    assert SingleOccupancy(b) by {
      forall x: Square, i, j | 0 <= i < PieceCount && 0 <= j < PieceCount && x in b[i] && x in b[j]
        ensures i == j
      {
        assert i == 0 || i == 11;
        assert j == 0 || j == 11;
      }
    }
    PieceAtSingle(b, 8);
    PieceAtSingle(b, A1);
  }

  /**
    The as-written move is accepted and leaves the White rook, not the Black
    queen, as the piece `get_at_sq` reports on a1.
   */
  lemma CounterMoveAsWritten()
    ensures CanApply(CounterPosition, CounterMove) && Accepted(CounterPosition, CounterMove)
    ensures RoundTripShape(CounterPosition, CounterMove)
    ensures var c1 := ApplyMoveAsWritten(CounterPosition, CounterMove);
      && PieceAt(c1.bitboards, A1) == Some(Piece(White, Rook))
      && c1.fullmoveNumber == CounterPosition.fullmoveNumber + 1
      && c1.halfmoveClock == 1
      && |c1.moveHistory| == 1
      && LastCommit(c1).m == CounterMove
      && LastCommit(c1).captured == Some(Piece(White, Rook))
  {
    var c := CounterPosition;
    var m := CounterMove;
    var rook := Piece(White, Rook);
    CounterPositionShows();
    var a := ApplyPromotionAsWritten(c, 8, A1, Piece(Black, Queen));
    PromotionCaptureDoubleClaims(c, 8, A1, Piece(Black, Queen));
    var c1 := ApplyMoveAsWritten(c, m);
    assert c1 == Finish(c, m, Piece(Black, Pawn), a);
    var b1 := c1.bitboards;
    assert A1 in b1[0];
    var q := PieceAt(b1, A1);
    assert q.Some?;
    assert Index(q.value) == 0;
    IndexInjective(q.value, rook);
  }

  /**
    On this position the move meets every condition of the round trip, yet
    `undo` after the as-written promotion does not give the position back:
    it reads the White rook as the mover, so the full-move number stays one
    ahead and a White pawn appears on a2.
   */
  lemma PromotionCaptureUndoFails()
    ensures SingleOccupancy(CounterPosition.bitboards)
    ensures CanApply(CounterPosition, CounterMove) && Accepted(CounterPosition, CounterMove)
    ensures RoundTripShape(CounterPosition, CounterMove)
    ensures CanUndo(ApplyMoveAsWritten(CounterPosition, CounterMove))
    ensures Undo(ApplyMoveAsWritten(CounterPosition, CounterMove)).fullmoveNumber == CounterPosition.fullmoveNumber + 1
    ensures 8 in Undo(ApplyMoveAsWritten(CounterPosition, CounterMove)).bitboards[Index(Piece(White, Pawn))]
    ensures Undo(ApplyMoveAsWritten(CounterPosition, CounterMove)) != CounterPosition
  {
    var rook := Piece(White, Rook);
    CounterPositionShows();
    CounterMoveAsWritten();
    var c1 := ApplyMoveAsWritten(CounterPosition, CounterMove);
    assert CanUndo(c1);
    var c2 := Undo(c1);
    var b1 := c1.bitboards;
    assert c2.bitboards == UndoPromotion(b1, 8, A1, rook, Some(rook));
    assert 8 !in CounterBoard[Index(Piece(White, Pawn))];
  }

  /** White to move, a White pawn on b7 and a Black rook on a8; nothing else on the board. */
  const MirrorBoard: BoardMap := [{}, {}, {}, {}, {}, {49}, {A8}, {}, {}, {}, {}, {}]
  const MirrorPosition: BoardConfig := BoardConfig(White, None, CastleFlags(0), 0, 1, MirrorBoard, [])
  /** b7 takes a8 and promotes to a White queen. */
  const MirrorMove: Move := Move(49, A8, Promotion(Some(Piece(White, Queen))))

  /** The position the as-written move leaves: queen and rook both claim a8, and the pawn's log entry. */
  const MirrorAfterBoard: BoardMap := [{}, {}, {}, {}, {A8}, {}, {A8}, {}, {}, {}, {}, {}]
  const MirrorAfter: BoardConfig :=
    BoardConfig(Black, None, CastleFlags(0), 1, 1, MirrorAfterBoard, [MoveCommit(MirrorMove, Some(Piece(Black, Rook)), None, CastleFlags(0))])

  /** The as-written move is accepted and reports the rook as captured, yet leaves it on a8 beside the queen. */
  lemma MirrorMoveAsWritten()
    ensures SingleOccupancy(MirrorBoard)
    ensures CanApply(MirrorPosition, MirrorMove) && Accepted(MirrorPosition, MirrorMove)
    ensures ApplyMoveAsWritten(MirrorPosition, MirrorMove) == MirrorAfter
    ensures !SingleOccupancy(MirrorAfterBoard)
  {
    var b := MirrorBoard;
    var queen, pawn := Piece(White, Queen), Piece(White, Pawn);
    assert SingleOccupancy(b) by {
      forall x: Square, i, j | 0 <= i < PieceCount && 0 <= j < PieceCount && x in b[i] && x in b[j]
        ensures i == j
      {
        assert i == 5 || i == 6;
        assert j == 5 || j == 6;
      }
    }
    PieceAtSingle(b, 49);
    PieceAtSingle(b, A8);
    var c, m := MirrorPosition, MirrorMove;
    var a := ApplyPromotionAsWritten(c, 49, A8, queen);
    assert ApplyMoveAsWritten(c, m) == Finish(c, m, pawn, a);
    assert b[5] - {49} == {};
    var lifted := RemovePiece(b, 49).board;
    assert lifted == b[5 := {}];
    var b1 := a.config.bitboards;
    assert Index(queen) == 4 && lifted[4] + {A8} == {A8};
    assert b1 == AddPiece(lifted, queen, A8);
    assert b1 == lifted[4 := {A8}];
    assert forall i :: 0 <= i < PieceCount ==> b1[i] == MirrorAfterBoard[i];
    assert b1 == MirrorAfterBoard;
    assert A8 in MirrorAfterBoard[4] && A8 in MirrorAfterBoard[6];
  }

  /** `undo` on that position reads the queen on a8, lifts it, puts the pawn back on b7 and the rook back on a8. */
  lemma MirrorUndo()
    ensures CanUndo(MirrorAfter)
    ensures Undo(MirrorAfter) == MirrorPosition
  {
    var b1 := MirrorAfterBoard;
    var queen, rook, pawn := Piece(White, Queen), Piece(Black, Rook), Piece(White, Pawn);
    assert forall i :: 0 <= i < 4 ==> A8 !in b1[i];
    assert PieceAt(b1, A8) == Some(queen);
    assert Index(queen) == 4 && b1[4] - {A8} == {};
    var lifted := RemovePiece(b1, A8).board;
    assert lifted == b1[4 := {}];
    var pawnBack := AddPiece(lifted, pawn, 49);
    assert Index(pawn) == 5 && lifted[5] + {49} == {49};
    assert pawnBack == lifted[5 := {49}];
    var back := UndoPromotion(b1, 49, A8, queen, Some(rook));
    assert Index(rook) == 6 && pawnBack[6] + {A8} == {A8};
    assert back == AddPiece(pawnBack, rook, A8);
    assert back == lifted[5 := {49}][6 := {A8}];
    assert forall i :: 0 <= i < PieceCount ==> back[i] == MirrorBoard[i];
    assert back == MirrorBoard;
  }

  /**
    The double claim alone does not break `undo`: when the promotion piece
    comes before the captured piece in the enumeration, as a White queen
    does before a Black rook, `get_at_sq` still reports the queen on the
    destination and `undo` gives the position back.
   */
  lemma MirrorCaptureUndoRestored()
    ensures CanApply(MirrorPosition, MirrorMove) && Accepted(MirrorPosition, MirrorMove)
    ensures !SingleOccupancy(ApplyMoveAsWritten(MirrorPosition, MirrorMove).bitboards)
    ensures CanUndo(ApplyMoveAsWritten(MirrorPosition, MirrorMove))
    ensures Undo(ApplyMoveAsWritten(MirrorPosition, MirrorMove)) == MirrorPosition
  {
    MirrorMoveAsWritten();
    MirrorUndo();
  }

  /** The same position and move with the corrected helper: `undo` gives the position back. */
  lemma PromotionCaptureUndoRestored()
    ensures Undo(ApplyMove(CounterPosition, CounterMove)) == CounterPosition
  {
    PromotionCaptureUndoFails();
    ApplyUndoRoundTrip(CounterPosition, CounterMove);
  }
}

=== FILE: moves.dfy ===
/**
  Move records and undo-log entries (`Move`, `MoveType`, `MoveCommit`),
  supplied to the board by its caller, and the fixed squares of the four
  castling moves.
 */
module Moves {
  import opened Wrappers
  import opened Pieces
  import opened Squares
  import opened Castling

  /** The five kinds of move; a promotion names the piece kind the pawn becomes. */
  datatype MoveType =
    | Normal
    | DoublePush
    | EnPassant
    | Castle(side: CastleType)
    | Promotion(promotion: Option<Piece>)

  datatype Move = Move(from: Square, to: Square, moveType: MoveType)

  /**
    One undo-log entry: the move, the piece it captured, the en-passant
    target before the move, and the castle-flag bits the move changed.
   */
  datatype MoveCommit = MoveCommit(m: Move, captured: Option<Piece>, epTarget: Option<Square>, castleDelta: CastleFlags)

  /** The squares a castling move takes king and rook from and to. */
  datatype CastleRoute = CastleRoute(kingFrom: Square, kingTo: Square, rookFrom: Square, rookTo: Square)

  /** The same route travelled backwards, as `undo_castle` does. */
  function Reversed(rt: CastleRoute): CastleRoute {
    CastleRoute(rt.kingTo, rt.kingFrom, rt.rookTo, rt.rookFrom)
  }

  /**
    The route of a castling move by colour `c` to `side`: the king leaves
    its home square on its back rank and moves two files towards `side`,
    the rook leaves that side's corner and lands on the square the king
    crossed.
   */
  function Route(c: Color, side: CastleType): (r: CastleRoute)
    ensures r.kingFrom == (if c == White then E1 else E8)
    ensures r.kingTo == (if side == KingSide then r.kingFrom + 2 else r.kingFrom - 2)
    ensures r.rookFrom == RookHome(RightFor(c, side))
    ensures 2 * r.rookTo == r.kingFrom + r.kingTo
    ensures r.kingFrom != r.kingTo && r.kingFrom != r.rookFrom && r.kingFrom != r.rookTo
    ensures r.kingTo != r.rookFrom && r.kingTo != r.rookTo && r.rookFrom != r.rookTo
  {
    match (c, side)
    case (White, KingSide) => CastleRoute(E1, G1, H1, F1)
    case (White, QueenSide) => CastleRoute(E1, C1, A1, D1)
    case (Black, KingSide) => CastleRoute(E8, G8, H8, F8)
    case (Black, QueenSide) => CastleRoute(E8, C8, A8, D8)
  }
}

=== FILE: pieces.dfy ===
/**
  The twelve piece kinds of the board (`BoardPiece` and `Color`), and the
  position of each kind in the array of twelve piece-sets.
 */
module Pieces {

  datatype Color = White | Black

  /** The other side; `toggle_active_color` applies it to the side to move. */
  function Opponent(c: Color): (d: Color)
    ensures d != c
  {
    match c
    case White => Black
    case Black => White
  }

  /** Toggling the side to move twice gives back the same side. */
  lemma OpponentInvolutive(c: Color)
    ensures Opponent(Opponent(c)) == c
  {
  }

  datatype Kind = Rook | Bishop | Knight | King | Queen | Pawn

  /** A piece kind of one colour: `WhiteRook` is `Piece(White, Rook)`. */
  datatype Piece = Piece(color: Color, kind: Kind)

  /** Number of piece-sets of a board. */
  const PieceCount: nat := 12

  /**
    The rank of a kind within one colour. The order of the enumeration is
    the one in which the occupancy helpers list the kinds.
   */
  function KindIndex(k: Kind): (i: nat)
    ensures i < 6
  {
    match k
    case Rook => 0
    case Bishop => 1
    case Knight => 2
    case King => 3
    case Queen => 4
    case Pawn => 5
  }

  /** The position of a piece kind in the piece-set array (`p as usize`): White kinds first. */
  function Index(p: Piece): (i: nat)
    ensures i < PieceCount
    ensures (i < 6) <==> p.color == White
  {
    (if p.color == White then 0 else 6) + KindIndex(p.kind)
  }

  /** The piece kind stored at a position of the piece-set array. */
  function PieceOf(i: nat): (p: Piece)
    requires i < PieceCount
    ensures Index(p) == i
  {
    var k := match i % 6
      case 0 => Rook
      case 1 => Bishop
      case 2 => Knight
      case 3 => King
      case 4 => Queen
      case _ => Pawn;
    Piece(if i < 6 then White else Black, k)
  }

  /** Distinct piece kinds occupy distinct positions of the piece-set array. */
  lemma IndexInjective(p: Piece, q: Piece)
    ensures Index(p) == Index(q) ==> p == q
    ensures PieceOf(Index(p)) == p
  {
  }

  /** `IndexInjective` for every pair of pieces at once. */
  lemma IndexInjectiveAll()
    ensures forall p: Piece, q: Piece :: Index(p) == Index(q) ==> p == q
  {
    forall p: Piece, q: Piece ensures Index(p) == Index(q) ==> p == q {
      IndexInjective(p, q);
    }
  }
}

=== FILE: round_trip.dfy ===
/**
  The central claim of the board: `undo` right after an accepted
  `apply_move` gives back the position as it was, in every field, for each
  of the five move kinds under the conditions stated in `RoundTripShape`.
 */
module RoundTrip {
  import opened Wrappers
  import opened Pieces
  import opened Squares
  import opened Castling
  import opened Moves
  import opened Bitboards
  import opened BoardConfigs

  /**
    The conditions under which a move of each kind can be taken back
    exactly: a double push and an en-passant capture land on an
    empty square; a castling move finds a piece of the mover's colour on the
    king's home square, a rook in the corner, empty landing squares, and
    names the king's landing square as its destination; a promotion turns a
    pawn into a piece of its own colour, capturing or not.
   */
  predicate RoundTripShape(c: BoardConfig, m: Move)
    requires PieceAt(c.bitboards, m.from).Some?
  {
    var p := Mover(c, m);
    var b := c.bitboards;
    match m.moveType
    case Normal => true
    case DoublePush => PieceAt(b, m.to).None? && Behind(p.color, m.to).Some?
    case EnPassant => PieceAt(b, m.to).None? && Behind(p.color, m.to).Some?
    case Castle(side) =>
      var rt := Route(p.color, side);
      && m.to == rt.kingTo
      && PieceAt(b, rt.kingFrom).Some? && PieceAt(b, rt.kingFrom).value.color == p.color
      && PieceAt(b, rt.rookFrom).Some?
      && PieceAt(b, rt.kingTo).None? && PieceAt(b, rt.rookTo).None?
    case Promotion(prom) =>
      prom.Some? && prom.value.color == p.color && p.kind == Pawn
  }

  /**
    The board part of a round trip: after the move-kind helper the
    destination holds a piece of the mover's colour, and the inverse helper
    `undo` chooses for it is defined and gives back the original piece-sets.
   */
  predicate BoardReversible(c: BoardConfig, m: Move, a: Applied) {
    var b1 := a.config.bitboards;
    && SingleOccupancy(b1)
    && PieceAt(b1, m.to).Some?
    && PieceAt(b1, m.to).value.color == c.activeColor
    && UndoDispatchDefined(b1, m, PieceAt(b1, m.to).value, a.captured)
    && UndoDispatch(b1, m, PieceAt(b1, m.to).value, a.captured) == c.bitboards
  }

  /** `undo_normal` reverses `apply_normal` on a board without double claims. */
  lemma NormalRoundTrip(c: BoardConfig, from: Square, to: Square)
    requires SingleOccupancy(c.bitboards) && PieceAt(RemovePiece(c.bitboards, to).board, from).Some?
    ensures var a := ApplyNormal(c, from, to);
      && SingleOccupancy(a.config.bitboards)
      && PieceAt(a.config.bitboards, to) == PieceAt(c.bitboards, from)
      && UndoNormal(a.config.bitboards, from, to, a.captured) == c.bitboards
  {
    var b := c.bitboards;
    var a := ApplyNormal(c, from, to);
    var b1 := a.config.bitboards;
    ApplyNormalView(c, from, to);
    assert PieceAt(b1, to) == AfterMove(b, from, to, to);
    assert PieceAt(b1, from) == AfterMove(b, from, to, from);
    UndoNormalView(b1, from, to, a.captured);
    var b2 := UndoNormal(b1, from, to, a.captured);
    AfterNormalBack(b, b1, b2, from, to, a.captured);
    BoardExtensionality(b2, b);
  }

  /** Square by square, a normal move followed by its undo shows what the board showed before. */
  lemma AfterNormalBack(b: BoardMap, b1: BoardMap, b2: BoardMap, from: Square, to: Square, cap: Option<Piece>)
    requires from != to && cap == PieceAt(b, to)
    requires forall x :: PieceAt(b1, x) == AfterMove(b, from, to, x)
    requires forall x :: PieceAt(b2, x) == (if x == to then cap else AfterMove(b1, to, from, x))
    ensures forall x :: PieceAt(b2, x) == PieceAt(b, x)
  {
    forall x ensures PieceAt(b2, x) == PieceAt(b, x) {
      assert PieceAt(b2, x) == (if x == to then cap else AfterMove(b1, to, from, x));
      assert PieceAt(b1, x) == AfterMove(b, from, to, x);
      assert PieceAt(b1, to) == AfterMove(b, from, to, to);
    }
  }

  /** `undo_double_push` reverses `apply_double_push` onto an empty square. */
  lemma DoublePushRoundTrip(c: BoardConfig, from: Square, to: Square, p: Piece)
    requires SingleOccupancy(c.bitboards) && PieceAt(c.bitboards, from).Some? && PieceAt(c.bitboards, to).None?
    requires Behind(p.color, to).Some?
    ensures PieceAt(RemovePiece(c.bitboards, to).board, from).Some?
    ensures var a := ApplyDoublePush(c, from, to, p);
      && SingleOccupancy(a.config.bitboards)
      && PieceAt(a.config.bitboards, to) == PieceAt(c.bitboards, from)
      && UndoDoublePush(a.config.bitboards, from, to) == c.bitboards
  {
    var b := c.bitboards;
    var a := ApplyDoublePush(c, from, to, p);
    var b1 := a.config.bitboards;
    assert b1 == MovePiece(b, from, to);
    MovePieceInverse(b, from, to);
    MovePieceView(b, from, to);
  }

  /** `undo_en_passant` reverses `apply_en_passant` onto an empty square, whether or not a piece stood behind it. */
  lemma EnPassantRoundTrip(c: BoardConfig, from: Square, to: Square, p: Piece)
    requires SingleOccupancy(c.bitboards) && PieceAt(c.bitboards, from) == Some(p) && PieceAt(c.bitboards, to).None?
    requires Behind(p.color, to).Some?
    ensures var a := ApplyEnPassant(c, from, to, p);
      && SingleOccupancy(a.config.bitboards)
      && PieceAt(a.config.bitboards, to) == Some(p)
      && UndoEnPassant(a.config.bitboards, from, to, p, a.captured) == c.bitboards
  {
    var b := c.bitboards;
    var a := ApplyEnPassant(c, from, to, p);
    var b1 := a.config.bitboards;
    var behind := Behind(p.color, to).value;
    var cap := a.captured;
    ApplyEnPassantView(c, from, to, p);
    assert PieceAt(b1, to) == AfterMove(b, from, to, to);
    assert PieceAt(b1, from) == AfterMove(b, from, to, from);
    assert PieceAt(b1, behind).None?;
    UndoEnPassantView(b1, from, to, p, cap);
    var b2 := UndoEnPassant(b1, from, to, p, cap);
    AfterEnPassantBack(b, b1, b2, from, to, behind, cap);
    BoardExtensionality(b2, b);
  }

  /** Square by square, an en-passant move onto an empty square followed by its undo shows what the board showed before. */
  lemma AfterEnPassantBack(b: BoardMap, b1: BoardMap, b2: BoardMap, from: Square, to: Square, behind: Square, cap: Option<Piece>)
    requires from != to && behind != to && PieceAt(b, to).None?
    requires cap == (if behind == from then None else PieceAt(b, behind))
    requires forall x :: PieceAt(b1, x) == (if x == behind then None else AfterMove(b, from, to, x))
    requires forall x :: PieceAt(b2, x) == (if cap.Some? && x == behind then cap else AfterMove(b1, to, from, x))
    ensures forall x :: PieceAt(b2, x) == PieceAt(b, x)
  {
    forall x ensures PieceAt(b2, x) == PieceAt(b, x) {
      assert PieceAt(b2, x) == (if cap.Some? && x == behind then cap else AfterMove(b1, to, from, x));
      assert PieceAt(b1, x) == (if x == behind then None else AfterMove(b, from, to, x));
      assert PieceAt(b1, to) == AfterMove(b, from, to, to);
    }
  }

  /** Moving king and rook back along a route returns the board that the forward trip started from. */
  lemma CastleRouteRoundTrip(b: BoardMap, rt: CastleRoute)
    requires rt.kingFrom != rt.kingTo && rt.kingFrom != rt.rookFrom && rt.kingFrom != rt.rookTo
    requires rt.kingTo != rt.rookFrom && rt.kingTo != rt.rookTo && rt.rookFrom != rt.rookTo
    requires SingleOccupancy(b) && PieceAt(b, rt.kingFrom).Some? && PieceAt(b, rt.rookFrom).Some?
    requires PieceAt(b, rt.kingTo).None? && PieceAt(b, rt.rookTo).None?
    ensures var b1 := MovePiece(MovePiece(b, rt.kingFrom, rt.kingTo), rt.rookFrom, rt.rookTo);
      && PieceAt(b1, rt.kingTo) == PieceAt(b, rt.kingFrom)
      && PieceAt(MovePiece(b1, rt.kingTo, rt.kingFrom), rt.rookTo).Some?
      && MovePiece(MovePiece(b1, rt.kingTo, rt.kingFrom), rt.rookTo, rt.rookFrom) == b
  {
    var b1 := MovePiece(MovePiece(b, rt.kingFrom, rt.kingTo), rt.rookFrom, rt.rookTo);
    CastleRouteView(b, rt);
    assert PieceAt(b1, rt.kingTo) == AfterCastle(b, rt, rt.kingTo);
    assert PieceAt(b1, rt.rookTo) == AfterCastle(b, rt, rt.rookTo);
    assert PieceAt(b1, rt.kingFrom) == AfterCastle(b, rt, rt.kingFrom);
    assert PieceAt(b1, rt.rookFrom) == AfterCastle(b, rt, rt.rookFrom);
    CastleRouteView(b1, Reversed(rt));
    var b2 := MovePiece(MovePiece(b1, rt.kingTo, rt.kingFrom), rt.rookTo, rt.rookFrom);
    AfterCastleBack(b, b1, b2, rt);
    BoardExtensionality(b2, b);
  }

  /** Square by square, the view of a castling route followed by its reverse is the view before. */
  lemma AfterCastleBack(b: BoardMap, b1: BoardMap, b2: BoardMap, rt: CastleRoute)
    requires rt.kingFrom != rt.kingTo && rt.kingFrom != rt.rookFrom && rt.kingFrom != rt.rookTo
    requires rt.kingTo != rt.rookFrom && rt.kingTo != rt.rookTo && rt.rookFrom != rt.rookTo
    requires PieceAt(b, rt.kingTo).None? && PieceAt(b, rt.rookTo).None?
    requires forall x :: PieceAt(b1, x) == AfterCastle(b, rt, x)
    requires forall x :: PieceAt(b2, x) == AfterCastle(b1, Reversed(rt), x)
    ensures forall x :: PieceAt(b2, x) == PieceAt(b, x)
  {
    forall x ensures PieceAt(b2, x) == PieceAt(b, x) {
      assert PieceAt(b2, x) == AfterCastle(b1, Reversed(rt), x);
      assert PieceAt(b1, rt.kingTo) == AfterCastle(b, rt, rt.kingTo);
      assert PieceAt(b1, rt.rookTo) == AfterCastle(b, rt, rt.rookTo);
      assert PieceAt(b1, x) == AfterCastle(b, rt, x);
    }
  }

  /** `undo_castle` reverses `apply_castle` with the king at home, a rook in the corner and empty landing squares. */
  lemma CastleRoundTrip(c: BoardConfig, p: Piece, side: CastleType)
    requires SingleOccupancy(c.bitboards)
    requires var rt := Route(p.color, side);
      && PieceAt(c.bitboards, rt.kingFrom).Some? && PieceAt(c.bitboards, rt.rookFrom).Some?
      && PieceAt(c.bitboards, rt.kingTo).None? && PieceAt(c.bitboards, rt.rookTo).None?
    ensures CastleDefined(c.bitboards, p.color, side)
    ensures var a := ApplyCastle(c, p, side);
      && SingleOccupancy(a.config.bitboards)
      && PieceAt(a.config.bitboards, Route(p.color, side).kingTo) == PieceAt(c.bitboards, Route(p.color, side).kingFrom)
      && UndoCastleDefined(a.config.bitboards, p.color, side)
      && UndoCastle(a.config.bitboards, p, side) == c.bitboards
  {
    var b := c.bitboards;
    var rt := Route(p.color, side);
    CastleRouteView(b, rt);
    CastleRouteRoundTrip(b, rt);
    var b1 := ApplyCastle(c, p, side).config.bitboards;
    assert b1 == MovePiece(MovePiece(b, rt.kingFrom, rt.kingTo), rt.rookFrom, rt.rookTo);
  }

  /** `undo_promotion` reverses the corrected promotion of a pawn into a piece of its colour, capturing or not. */
  lemma PromotionRoundTrip(c: BoardConfig, from: Square, to: Square, prom: Piece)
    requires SingleOccupancy(c.bitboards)
    requires PieceAt(c.bitboards, from) == Some(Piece(prom.color, Pawn))
    ensures var a := ApplyPromotion(c, from, to, prom);
      && SingleOccupancy(a.config.bitboards)
      && PieceAt(a.config.bitboards, to) == Some(prom)
      && UndoPromotion(a.config.bitboards, from, to, prom, a.captured) == c.bitboards
  {
    if from == to {
      InPlacePromotionRoundTrip(c, from, prom);
      return;
    }
    var b := c.bitboards;
    var a := ApplyPromotion(c, from, to, prom);
    var b1 := a.config.bitboards;
    ApplyPromotionView(c, from, to, prom);
    assert PieceAt(b1, from).None?;
    UndoPromotionView(b1, from, to, prom, a.captured);
    var b2 := UndoPromotion(b1, from, to, prom, a.captured);
    forall x ensures PieceAt(b2, x) == PieceAt(b, x) {
      assert PieceAt(b1, x) == (if x == to then Some(prom) else if x == from then None else PieceAt(b, x));
    }
    BoardExtensionality(b2, b);
  }

  /**
    A promotion whose destination is its own origin: the lifted pawn leaves
    the square empty, so nothing is captured, and `undo_promotion` takes the
    promotion piece off and puts the pawn back.
   */
  lemma InPlacePromotionRoundTrip(c: BoardConfig, sq: Square, prom: Piece)
    requires SingleOccupancy(c.bitboards)
    requires PieceAt(c.bitboards, sq) == Some(Piece(prom.color, Pawn))
    ensures var a := ApplyPromotion(c, sq, sq, prom);
      && a.captured.None?
      && SingleOccupancy(a.config.bitboards)
      && PieceAt(a.config.bitboards, sq) == Some(prom)
      && UndoPromotion(a.config.bitboards, sq, sq, prom, a.captured) == c.bitboards
  {
    var b := c.bitboards;
    var lifted := RemovePiece(b, sq).board;
    RemovePieceView(b, sq);
    assert RemovePiece(lifted, sq).board == lifted;
    var b1 := ApplyPromotion(c, sq, sq, prom).config.bitboards;
    assert b1 == AddPiece(lifted, prom, sq);
    AddPieceView(lifted, prom, sq);
    AddRemoveInverse(lifted, prom, sq);
    RemoveAddInverse(b, sq);
  }

  /** The board part of the round trip, for whichever helper `apply_move` dispatches to. */
  lemma BoardRoundTrip(c: BoardConfig, m: Move)
    requires SingleOccupancy(c.bitboards) && CanApply(c, m) && Accepted(c, m)
    requires RoundTripShape(c, m)
    ensures BoardReversible(c, m, Dispatch(c, m, Mover(c, m)))
  {
    var p := Mover(c, m);
    match m.moveType
    case Normal =>
      NormalRoundTrip(c, m.from, m.to);
      assert Dispatch(c, m, p) == ApplyNormal(c, m.from, m.to);
    case DoublePush =>
      DoublePushRoundTrip(c, m.from, m.to, p);
      assert Dispatch(c, m, p) == ApplyDoublePush(c, m.from, m.to, p);
    case EnPassant =>
      EnPassantRoundTrip(c, m.from, m.to, p);
      assert Dispatch(c, m, p) == ApplyEnPassant(c, m.from, m.to, p);
    case Castle(side) =>
      CastleRoundTrip(c, p, side);
      assert Dispatch(c, m, p) == ApplyCastle(c, p, side);
    case Promotion(prom) =>
      PromotionRoundTrip(c, m.from, m.to, prom.value);
      assert Dispatch(c, m, p) == ApplyPromotion(c, m.from, m.to, prom.value);
  }

  /** Every field but the piece-sets comes back by the bookkeeping of `apply_move` and `undo`. */
  lemma BookkeepingRoundTrip(c: BoardConfig, m: Move)
    requires CanApply(c, m) && Accepted(c, m)
    requires BoardReversible(c, m, Dispatch(c, m, Mover(c, m)))
    ensures SingleOccupancy(ApplyMove(c, m).bitboards)
    ensures CanUndo(ApplyMove(c, m))
    ensures Undo(ApplyMove(c, m)) == c
  {
    var p := Mover(c, m);
    var a := Dispatch(c, m, p);
    var c1 := ApplyMove(c, m);
    assert c1 == Finish(c, m, p, a);
    var commit := LastCommit(c1);
    assert commit == MoveCommit(m, a.captured, c.enPassantTarget, Xor(c1.castleFlags, c.castleFlags));
    var q := PieceAt(c1.bitboards, m.to).value;
    assert q.color == p.color;
    assert CanUndo(c1);
    var c2 := Undo(c1);
    XorDeltaDetermines(c2.castleFlags, c1.castleFlags, c.castleFlags);
    OpponentInvolutive(c.activeColor);
    assert c1.moveHistory[..|c1.moveHistory| - 1] == c.moveHistory;
    assert c2.bitboards == c.bitboards;
  }

  /**
    `undo` after an accepted `apply_move` restores every field of the
    position: piece-sets, side to move, en-passant target, castle flags,
    both counters and the log. The move also keeps single occupancy.
   */
  lemma ApplyUndoRoundTrip(c: BoardConfig, m: Move)
    requires SingleOccupancy(c.bitboards)
    requires CanApply(c, m) && Accepted(c, m)
    requires RoundTripShape(c, m)
    ensures SingleOccupancy(ApplyMove(c, m).bitboards)
    ensures CanUndo(ApplyMove(c, m))
    ensures Undo(ApplyMove(c, m)) == c
  {
    BoardRoundTrip(c, m);
    BookkeepingRoundTrip(c, m);
  }
}

=== FILE: squares.dfy ===
/**
  The 64 squares of the board, numbered rank by rank from A1 = 0 to H8 = 63,
  so one rank towards White's side is eight less.
 */
module Squares {
  import opened Wrappers
  import opened Pieces

  type Square = x: int | 0 <= x < 64

  const A1: Square := 0
  const C1: Square := 2
  const D1: Square := 3
  const E1: Square := 4
  const F1: Square := 5
  const G1: Square := 6
  const H1: Square := 7
  const A8: Square := 56
  const C8: Square := 58
  const D8: Square := 59
  const E8: Square := 60
  const F8: Square := 61
  const G8: Square := 62
  const H8: Square := 63

  /**
    The square one rank behind `to` from the point of view of a mover of
    colour `c` (`Square::try_from(to - 8)` for White, `to + 8` for Black);
    None where that conversion fails, which the source turns into a panic.
   */
  function Behind(c: Color, to: Square): (r: Option<Square>)
    ensures r.Some? <==> (if c == White then to >= 8 else to < 56)
    ensures r.Some? ==> r.value != to && (r.value - to == 8 || to - r.value == 8)
    ensures r.Some? && c == White ==> r.value < to
    ensures r.Some? && c == Black ==> r.value > to
  {
    if c == White then
      if to >= 8 then Some(to - 8) else None
    else
      if to + 8 < 64 then Some(to + 8) else None
  }
}

=== FILE: wrappers.dfy ===
/** The optional value used throughout the model, standing for Rust's `Option`. */
module Wrappers {

  datatype Option<+T> = None | Some(value: T)
}
